=== FILE: README.md ===
# libdshowcapture capture core in Dafny

This project models two parts of libdshowcapture, a C++ library for capturing video and audio from DirectShow devices.

- **The closest-capability selector** (`source/dshow-enum.cpp`). A capture pin lists capability records. The selector walks them in order and scores each compatible record by a per-axis deficit:
  - video: width, height and frame interval;
  - audio: sample rate and channel count.

  A record replaces the current best only when it scores strictly lower, and the walk stops on a record taken with score 0. On the record taken, each zero-deficit axis is set to the request, clamped down to the granularity grid anchored at the axis minimum. For audio, block alignment and bytes per second are then recomputed. The plain capability listings (`EnumVideoCaps`, `EnumAudioCaps`) are modelled too.
- **The capture session `HDevice`** (`source/device.cpp`). It is modelled as a class with the source's fields:
  - the two flags `initialized` and `active`;
  - for each stream, the device filter, the capture sink, the negotiated media type and the resolved configuration.

  Every answer from the device, the COM runtime or the graph engine is a method parameter. This covers lookup results, `GetFormat`/`SetFormat` outcomes, the capability list, `RenderStream`/`FindPin`/`Connect` outcomes and the HRESULT of `Run`. The engine operations the session invokes are appended, in order, to a field `calls`.

Files:

- `types.dfy` (module `Types`): the media type, capability records, configurations, and the WORD/DWORD field types.
- `dshow_enum.dfy` (module `DShowEnum`): the clamp, the deficits, per-record scoring, the walk specification `Walk`, and the four loop methods proved against it.
- `device.dfy` (module `Device`): the `HDevice` class.

Points where the code does something other than the obvious symmetric reading, all modelled as written:

- **Channel deficit.** The sample rate uses the range distance (`source/dshow-enum.cpp:268-271`). The channel deficit compares `maxChannels > channels` at line 275 instead of `channels > maxChannels`, so:
  - a request inside `[min, max)` scores `req - max`, a negative value;
  - a request at or above both bounds scores 0.

  For example, 8 channels against a record allowing 1–2 channels score 0 on that axis. The channel count is then set to 8, above the record's maximum (`DShowEnum.AudioChannelsAboveMaximum`).
- **Block alignment** is rewritten only when the channel deficit is 0 (lines 281-289). Bytes per second are rewritten on every record taken (lines 298-299).
- **Failed `SetAudioConfig`.** With `useVideoDevice` set and no video filter attached, `SetAudioConfig` fails only after it has already:
  - removed the previous audio attachment from the graph;
  - released the filters;
  - cleared the audio media type.

  The resulting state is stated by `Device.HDevice.SetAudioConfig` (`source/device.cpp:326-344`).
- **Granularity.** Video granularities below 1 are raised to 1 (`source/dshow-enum.cpp:91-92`). Audio granularities are copied as reported, zero included (`source/dshow-enum.cpp:117,120`).

## Model

| member | source | states |
|---|---|---|
| Types.ToWord | source/dshow-enum.cpp:285-288 | storing into a WORD field keeps an in-range value unchanged, and any value is truncated to one congruent to it modulo 2^16 |
| Types.ToDWord | source/dshow-enum.cpp:292-299 | storing into a DWORD field keeps an in-range value unchanged, and any value is truncated to one congruent to it modulo 2^32 |
| Types.DWordToInt | source/device.cpp:137 | reading a DWORD sample rate into an int gives a signed 32-bit value congruent to it modulo 2^32 |
| DShowEnum.ClampToGranularity | source/dshow-enum.cpp:137-140 | for `minVal <= val`: the result lies in `[minVal, val]`, is on the grid `minVal + k*g`, and is less than one granularity step below `val` |
| DShowEnum.ClampIdempotent | source/dshow-enum.cpp:137-140 | an aligned value is a fixed point, and clamping twice equals clamping once |
| DShowEnum.ClampIsLargestOnGrid | source/dshow-enum.cpp:137-140 | every grid point at or below `val` is at or below the clamped value, so the clamp is the largest grid value not above the request |
| DShowEnum.RangeDeficit | source/dshow-enum.cpp:166-179 | the video axes' and sample rate's deficit is non-negative, is 0 exactly when the request is in `[min, max]`, is `min - req` when the request is below the minimum, and `req - max` when it is at least the minimum and above the maximum |
| DShowEnum.ChannelDeficit | source/dshow-enum.cpp:273-276 | as written: positive distance below the minimum, `req - max < 0` inside `[min, max)`, and 0 exactly when the request is at least both bounds |
| DShowEnum.ChannelDeficitAgreesOnlyAt | source/dshow-enum.cpp:268-276 | the channel deficit equals the range deficit exactly when the request is below the minimum or equal to the maximum |
| DShowEnum.GetVideoInfoData | source/dshow-enum.cpp:61-99 | no record for an unrecognised subtype or a null caps block; a reported granularity of at least 1 is copied and one below 1 becomes exactly 1; intervals copied; any zero size bound makes min = max = the bitmap's width and height, otherwise the bounds are copied |
| DShowEnum.GetWaveFormatExData | source/dshow-enum.cpp:101-121 | 16 bits names Wave16bit, 32 bits WaveFloat, anything else leaves the format unset; every range and granularity is copied as reported |
| DShowEnum.VideoCandidate | source/dshow-enum.cpp:142-197 | a record is scored iff it is a VideoInfo record with readable data and an accepted format; the score is the sum of the width, height and interval range deficits, so it is non-negative and 0 iff every axis is in range; an in-range size becomes the clamped request, in range and within one step below it; an in-range interval is copied; out-of-range axes keep the record's values; nothing else changes |
| DShowEnum.AudioCandidate | source/dshow-enum.cpp:248-299 | a record is scored iff it is a WaveFormatEx record with an accepted format; the score is rate deficit plus channel deficit as written; a zero channel deficit sets channels to the clamped request and blockAlign to bits*channels/8 (in WORD); a zero rate deficit sets the clamped rate; avgBytes is always rate*blockAlign (in DWORD); nothing else changes |
| DShowEnum.AudioBlockAlignExact | source/dshow-enum.cpp:281-289 | without wrap-around, a zero channel deficit yields the exact clamped channel count and `blockAlign == bits * channels / 8` |
| DShowEnum.Offer | source/dshow-enum.cpp:183-207 | a skipped record changes nothing; a scored record is taken iff nothing was taken yet or it scores strictly lower; taking a record with score 0 stops the walk |
| DShowEnum.Walk | source/dshow-enum.cpp:44-50 | offers the records in order and stops when a callback asks; once a record is taken the result has one whose score is no higher, and a walk that takes nothing returns its starting accumulator |
| DShowEnum.WalkFound | source/dshow-enum.cpp:44-50 | the walk finds a record iff some entry scores; a found walk has a media type; a walk that found nothing leaves the accumulator as it was |
| DShowEnum.WalkMinimalUnlessStopped | source/dshow-enum.cpp:44-50 | the best score never rises, and a walk not ended early scores at or below every record it saw |
| DShowEnum.WalkStopsAtPerfect | source/dshow-enum.cpp:44-50 | a walk ended early has found a record with score 0 and ignores every later record |
| DShowEnum.WalkContinues | source/dshow-enum.cpp:44-50 | a walk that was not ended early continues over more records from its final accumulator |
| DShowEnum.WalkChoosesFirstBest | source/dshow-enum.cpp:183-201 | either nothing replaced the starting accumulator, or the result is the first record with the best score, and no earlier record scores that low |
| DShowEnum.GetClosestVideoMediaType | source/dshow-enum.cpp:210-232 | the pin lookup and `return data.found` of the selector, with EnumPinCaps' loop (lines 30-58) inlined: without a pin, or when the pin cannot list its records, it fails with `mt` untouched; otherwise the loop with its early break returns exactly the walk's `found` and media type |
| DShowEnum.ClosestVideoFound | source/dshow-enum.cpp:210-232 | the video selector succeeds iff some record is compatible, and then it yields a media type |
| DShowEnum.ClosestVideoOptimal | source/dshow-enum.cpp:183-204 | the chosen video record scores no more than any compatible record |
| DShowEnum.ClosestVideoFirstBest | source/dshow-enum.cpp:183-201 | ties keep the earlier record: the chosen media type is the first best record's |
| DShowEnum.GetClosestAudioMediaType | source/dshow-enum.cpp:312-334 | as the video selector, with the audio scoring: failure leaves `mt` untouched, otherwise the result is exactly the walk's |
| DShowEnum.ClosestAudioFound | source/dshow-enum.cpp:312-334 | the audio selector succeeds iff some record is compatible, and then it yields a media type |
| DShowEnum.ClosestAudioOptimalUnlessPerfect | source/dshow-enum.cpp:280-306 | unless the walk stopped on score 0, the chosen audio record scores no more than any compatible record (negative channel scores make an earlier 0 stop short of lower scores) |
| DShowEnum.ClosestAudioFirstBest | source/dshow-enum.cpp:280-303 | ties keep the earlier audio record |
| DShowEnum.EnumVideoCaps | source/dshow-enum.cpp:336-351 | succeeds iff the pin can list its records, and appends exactly the normalised record of every readable VideoInfo entry, in order |
| DShowEnum.VideoCapOf | source/dshow-enum.cpp:336-346 | one record contributes at most one entry: exactly the read VideoInfo data, when the record is a VideoInfo record whose data can be read, and nothing otherwise |
| DShowEnum.VideoCapsOf | source/dshow-enum.cpp:336-346 | the listing of a pin's records, each record's contribution in order, is no longer than the pin's list |
| DShowEnum.VideoCapsNormalised | source/dshow-enum.cpp:85-92 | every listed video record has both granularities at least 1, and the listing is no longer than the pin's list |
| DShowEnum.VideoCapsComplete | source/dshow-enum.cpp:341-343 | every readable VideoInfo entry appears in the listing |
| DShowEnum.EnumAudioCaps | source/dshow-enum.cpp:353-369 | succeeds iff the pin can list its records, and appends the record of every WaveFormatEx entry, in order |
| DShowEnum.AudioCapOf | source/dshow-enum.cpp:353-364 | a WaveFormatEx record contributes exactly its read AudioInfo, any other record nothing |
| DShowEnum.AudioCapsOf | source/dshow-enum.cpp:353-364 | the listing of a pin's records, each record's contribution in order, is no longer than the pin's list |
| DShowEnum.AudioCapsCount | source/dshow-enum.cpp:358-361 | the audio listing has exactly as many records as the pin has WaveFormatEx entries |
| DShowEnum.Video1080pPerfect | source/dshow-enum.cpp:142-207 | 1920x1080 at 30 fps against 640–1920 x 480–1080, 15–60 fps, granularity 8 scores 0 and keeps the requested size and interval |
| DShowEnum.AudioChannelsAboveMaximum | source/dshow-enum.cpp:265-299 | 96000 Hz and 8 channels against 8000–48000 Hz and 1–2 channels: channel deficit 0, total 48000, channels 8, blockAlign 16, rate left at the record's own |
| Device.AudioFormatOfBits | source/device.cpp:140-145 | 16 bits maps to Wave16bit, 32 bits to WaveFloat, and anything else to Unknown, each in both directions |
| Device.ExpectedVideoSubType | source/device.cpp:196-208 | the XRGB, ARGB, YVYU, YUY2 and UYVY formats force the capture sink's subtype; any other format keeps the negotiated subtype |
| Device.LinkCalls | source/device.cpp:500-520 | one stream's connection starts with RenderStream, calls FindPin iff rendering failed, and calls Connect iff rendering failed and the pin was found |
| Device.VideoSource | source/device.cpp:235-251 | a video device is resolved iff a name or path is given, the lookup succeeds and it yields a filter, and then it is that filter |
| Device.AudioSource | source/device.cpp:336-362 | with useVideoDevice the device is the attached video filter (none if none is attached); otherwise it is resolved iff a name or path is given, the lookup succeeds and it yields a filter, and then it is that filter |
| Device.AudioRemovals | source/device.cpp:326-328 | SetAudioConfig's removals: two calls, the device filter then the capture sink, or only the sink when the previous configuration shared the video device |
| Device.HDevice.EnsureInitialized | source/device.cpp:40-48 | the guard passes exactly when the session is initialized |
| Device.HDevice.EnsureActive | source/device.cpp:50-58 | the guard passes exactly when the session is running |
| Device.HDevice.EnsureInactive | source/device.cpp:60-68 | the guard passes exactly when the session is not running |
| Device.HDevice.constructor | source/device.cpp:28-32 | a new session is uninitialized and inactive, with nothing attached and no engine call made |
| Device.HDevice.Destroy | source/device.cpp:34-38 | the engine is stopped exactly when the session was active, and the session ends inactive |
| Device.HDevice.AudioCallback | source/device.cpp:70-90 | forwards exactly when the sample is non-null, a callback is registered, the length is nonzero, and the pointer and times were obtained; it forwards the sample's own pointer, length and times |
| Device.HDevice.VideoCallback | source/device.cpp:92-112 | the same forwarding rule for video samples |
| Device.ConvertedVideo | source/device.cpp:114-130 | with a bitmap header, the configuration takes the negotiated size and interval and a recognised subtype's format (an unrecognised one keeps the internal format, see "## Left out"); `format` follows `internalFormat` only if they were equal before; without a header nothing changes; name, path, callback and default flag are always kept |
| Device.HDevice.ConvertVideoSettings | source/device.cpp:114-130 | the session's video configuration becomes `ConvertedVideo` of its old value and the negotiated media type, and nothing else changes |
| Device.ConvertedAudio | source/device.cpp:132-146 | the configuration takes the negotiated rate (as a signed int), the channel count and the sample format by bit depth; name, path, callback, both flags and the mode are kept |
| Device.HDevice.ConvertAudioSettings | source/device.cpp:132-146 | the session's audio configuration becomes `ConvertedAudio` of its old value and the negotiated media type, and nothing else changes |
| Device.HDevice.SetupVideoCapture | source/device.cpp:148-216 | succeeds iff the pin and its stream configuration exist and the default format is read, or the selector finds a record and SetFormat succeeds; on success the negotiated type is recorded, the configuration is `ConvertedVideo` of the previous one, the sink expects `ExpectedVideoSubType` of the converted format, and the sink and then the device filter are added; on failure nothing is attached; the media type stays None when the pin or its stream configuration is missing, and otherwise is the negotiated one (None when GetFormat or the selector fails), also when SetFormat then fails |
| Device.HDevice.SetVideoConfig | source/device.cpp:218-260 | the guards fail with nothing changed; otherwise the old attachment is always removed and cleared first; a null configuration succeeds with nothing attached; an empty name and path or a failed lookup fails; on success the attached filter is the looked-up one, the media type is the negotiated one, the caller's configuration is written back as `ConvertedVideo` of the one passed in (same name, path, callback and flags), and the capture sink expects `ExpectedVideoSubType` of its format; when the device resolves but the setup fails, the media type is None if the pin or stream configuration is missing and otherwise the negotiated one (None when nothing was negotiated); audio state never changes |
| Device.HDevice.SetupAudioCapture | source/device.cpp:262-316 | succeeds iff the pin and its stream configuration exist, a format is obtained (default or selected), and SetFormat succeeds in either branch; on success the configuration is `ConvertedAudio` of the previous one, the sink expects the negotiated major type and subtype, and the sink and device filter are added; on failure nothing is attached and the configuration is unchanged; the media type stays None when the pin or its stream configuration is missing, and otherwise is the negotiated one (None when GetFormat or the selector fails), also when SetFormat then fails |
| Device.HDevice.SetAudioConfig | source/device.cpp:318-376 | the guards fail with nothing changed; otherwise the old device filter is removed only if the previous configuration did not share the video device, and the old sink is always removed; a null configuration succeeds; the rest is `AttachAudio`'s outcome (including the media type a failed setup leaves), and on success the caller's configuration is written back as `ConvertedAudio` of the one passed in (same name, path, callback, flags and mode) and the capture sink expects the negotiated major type and subtype; video state never changes |
| Device.HDevice.AttachAudio | source/device.cpp:330-375 | no name or path (without useVideoDevice), useVideoDevice without a video filter, or a failed lookup fails with the configuration untouched; once a device is found the configuration is overwritten, and any mode other than Capture then fails; in Capture mode it succeeds iff the setup does, and then the filter is the resolved device, the media type the negotiated one, the configuration `ConvertedAudio` of the one passed in and the capture sink expects the negotiated major type and subtype; in Capture mode the media type is None when the pin or stream configuration is missing and otherwise the negotiated one (None when nothing was negotiated), even when SetFormat fails |
| Device.HDevice.CreateGraph | source/device.cpp:378-416 | fails and changes nothing when already initialized; otherwise `initialized` becomes true iff all four creation steps succeed |
| Device.HDevice.ConnectPins | source/device.cpp:418-445 | guarded; calls FindPin, then Connect only if the pin was found; succeeds iff both succeed |
| Device.HDevice.RenderFilters | source/device.cpp:447-463 | guarded; calls RenderStream and reports its outcome |
| Device.HDevice.Link | source/device.cpp:500-520 | render first, and a pin-to-pin connection only if rendering failed; succeeds iff one of the two does |
| Device.HDevice.ConnectFilters | source/device.cpp:492-526 | guarded; video is tried before audio, audio is skipped once video failed, and nothing attached means success; the engine calls are exactly video's then audio's |
| Device.HDevice.Start | source/device.cpp:528-550 | guarded, with no Run call on failure; otherwise Run is called once; failure with 0x8007001F gives InUse and any other failure Error, with `active` unchanged; success sets `active` |
| Device.HDevice.Stop | source/device.cpp:552-558 | the engine is stopped only when active, and the session ends inactive |
| Device.StopTwice | source/device.cpp:552-558 | a second Stop makes no engine call: two Stops stop the engine at most once |
| Device.StartWhileRunning | source/device.cpp:532-534 | Start on a running session returns Error without calling Run or changing anything |
| Device.ClearVideoOnFreshSession | source/device.cpp:218-238 | on a freshly created graph, clearing the video configuration succeeds and makes only the two removals of null filters; if graph creation failed, the call fails without any engine call |

## Left out

- The COM runtime and the graph engine are not modelled. Their answers are method parameters, and their effects are a log of calls. This covers `CoCreateInstance`, `QueryInterface`, reference counting, `GetFormat`/`SetFormat`, `AddFilter`, `RemoveFilter`, `RenderStream`, `FindPin`, `Connect`, `Run` and `Stop`. Interface pointers that a partly failed `CreateGraph` leaves behind are not tracked.
- `EnumDevice`/`EnumDevices` (`source/dshow-enum.cpp:371-439`) are not modelled: they are system device enumeration. `GetDeviceFilter` becomes a `DeviceLookup` parameter, and `GetFilterPin` becomes the pin outcome.
- `GetMediaTypeVFormat` and `GetBitmapInfoHeader` (dshow-formats.cpp) are not part of this model. A subtype is either a known video format or an opaque code. A bitmap header is present for VideoInfo and VideoInfo2 format blocks.
- The GUID constants behind the forced subtypes are not modelled: each forced subtype is named by its video format.
- `LogFilters` and all logging are omitted: they are diagnostics.
- Sample payloads are opaque pointers. The callbacks run on the engine's delivery thread, and the model treats each delivery as a single synchronous call.
- Overflow of the C++ `int`/`long long` deficit arithmetic is not modelled; integers are unbounded. WORD/DWORD stores into the wave format are modelled.
- The ULONG/LONG fields of the capability blocks are read as unbounded integers.
- DShowEnum.ClampToGranularity: the caller must pass `minVal <= val`, the only case where C++'s truncating `%` and Dafny's agree. The selectors call it only on a zero-deficit axis, where this holds; the case `val < minVal` is not modelled.
- DShowEnum.GetClosestAudioMediaType: the source reads an audio caps block without a null check and divides by its granularities unchecked. The model requires every WaveFormatEx record to have a caps block, and a nonzero granularity on every zero-deficit axis. This is slightly stronger than the source needs, since a record that is never taken is harmless there.
- DShowEnum.EnumAudioCaps: the model requires a caps block on every WaveFormatEx record, for the same reason.
- DShowEnum.GetWaveFormatExData: when the sample size is neither 16 nor 32 bits, the source leaves `AudioInfo.format` uninitialised. The model uses None, which matches only an `Any` request.
- Device.HDevice.constructor: the C++ constructor leaves the configuration members default-constructed. The model fixes them to empty names and paths, no callback, default format and Capture mode.
- Device.HDevice.SetAudioConfig: the modes other than Capture are a stub in the source, and the model only records that they fail.
- Device.HDevice.SetAudioConfig: requires `AudioSetupUsable` for the configuration passed in, inherited from `DShowEnum.GetClosestAudioMediaType`. It excludes caps lists the source accepts: a WaveFormatEx record without a caps block, or with a zero granularity on a zero-deficit axis, even if that record is never taken. It also excludes such lists when the pin is missing and the selector never runs.
- Device.HDevice.AttachAudio: requires `AudioSetupUsable` for the same reason and with the same gap as SetAudioConfig.
- Device.HDevice.SetupAudioCapture: requires `AudioSetupUsable` for the same reason and with the same gap as SetAudioConfig.
- Device.ConvertedVideo: `GetMediaTypeVFormat` (dshow-formats.cpp) is not part of this model. The model assumes that for a subtype it does not recognise it leaves its out-parameter, the internal format, unchanged. If it wrote an Unknown format instead, the `format` rule of source/device.cpp:126-128 and `ExpectedVideoSubType` would differ for that case.

=== FILE: device.dfy ===
/**
 * The capture session (HDevice): two flags, `initialized` and `active`,
 * the video and audio attachments (device filter, capture sink, negotiated
 * media type, resolved configuration), and the graph-engine operations the
 * session invokes, recorded in order. Everything the device, the COM runtime
 * or the graph engine answers is a parameter.
 */
module Device {
  import opened Types
  import DShowEnum

  datatype Stream = Video | Audio

  /** The outcome of Start. */
  datatype Result = Success | InUse | Error

  /** A 32-bit HRESULT; a failure code is negative. */
  type HResult = x: int | -0x8000_0000 <= x < 0x8000_0000

  predicate Failed(hr: HResult)
  {
    hr < 0
  }

  /** The Run failure code 0x8007001F, read as a signed HRESULT, that Start reports as "device in use". */
  const DeviceInUse: HResult := 0x8007001F - 0x1_0000_0000

  /** A device filter, known only by identity. */
  type FilterId = nat

  /** The capture sink created for one stream and the media type it expects. */
  datatype CaptureFilter = CaptureFilter(stream: Stream, majorType: MajorType, subType: SubType)

  /** A filter in the graph. */
  datatype Node = DeviceFilter(id: FilterId) | CaptureSink(capture: CaptureFilter)

  function DeviceNode(f: Option<FilterId>): Option<Node>
  {
    match f
    case None => None
    case Some(id) => Some(DeviceFilter(id))
  }

  function CaptureNode(c: Option<CaptureFilter>): Option<Node>
  {
    match c
    case None => None
    case Some(cf) => Some(CaptureSink(cf))
  }

  /** An operation invoked on the graph engine. Removing a null filter is recorded with None. */
  datatype EngineCall =
    | AddFilter(node: Node)
    | RemoveFilter(target: Option<Node>)
    | RenderStream(stream: Stream)
    | FindPin(stream: Stream)
    | Connect(stream: Stream)
    | Run
    | StopGraph

  /** What the device lookup by name and path answers: not found, or a filter that may be null. */
  datatype DeviceLookup = NotFound | Found(filter: Option<FilterId>)

  /** The four creation steps of CreateGraph and whether each succeeds. */
  datatype GraphSteps = GraphSteps(graphCreated: bool, builderCreated: bool, controlFound: bool, graphAttached: bool)

  /**
   * What the device answers while a stream is set up: whether its capture
   * pin and that pin's stream configuration interface exist, its default
   * format (None: GetFormat failed), its capability list as the selector
   * sees it (None: no capture pin), and whether SetFormat succeeds.
   */
  datatype SetupOutcome<C> = SetupOutcome(
    pinFound: bool,
    hasStreamConfig: bool,
    defaultFormat: Option<MediaType>,
    caps: Option<PinCaps<C>>,
    setFormatOk: bool)

  /** What the engine answers to the two connection strategies of one stream. */
  datatype LinkOutcome = LinkOutcome(renderOk: bool, pinFound: bool, connectOk: bool)

  datatype SampleTimes = SampleTimes(start: int, stop: int)

  /**
   * A delivered media sample: its actual data length, its buffer pointer
   * (None: GetPointer failed) and its times (None: GetTime failed).
   */
  datatype Sample = Sample(length: int, pointer: Option<nat>, times: Option<SampleTimes>)

  /** What a registered frame callback receives. */
  datatype Delivery = Delivery(pointer: nat, length: int, start: int, stop: int)

  const DefaultVideoConfig: VideoConfig :=
    VideoConfig("", "", false, true, 0, 0, 0, VideoFormat.Any, VideoFormat.Any)

  const DefaultAudioConfig: AudioConfig :=
    AudioConfig("", "", false, false, true, 0, 0, AudioFormat.Any, Capture)

  // ---------------------------------------------------------------------
  // Pure parts of the session
  // ---------------------------------------------------------------------

  /** ConvertAudioSettings' sample-format table. */
  function AudioFormatOfBits(bits: Word): (f: AudioFormat)
    ensures f == AudioFormat.Wave16bit <==> bits == 16
    ensures f == AudioFormat.WaveFloat <==> bits == 32
    ensures f == AudioFormat.Unknown <==> bits != 16 && bits != 32
  {
    if bits == 16 then AudioFormat.Wave16bit
    else if bits == 32 then AudioFormat.WaveFloat
    else AudioFormat.Unknown
  }

  /** The packed RGB and YUV formats the capture sink insists on, so that the engine inserts a converter. */
  predicate Forced(format: VideoFormat)
  {
    format in {VideoFormat.XRGB, VideoFormat.ARGB, VideoFormat.YVYU, VideoFormat.YUY2, VideoFormat.UYVY}
  }

  /**
   * The subtype the video capture sink expects: the five packed RGB and YUV
   * formats are forced (so that the engine inserts a converter), any other
   * format keeps the negotiated subtype.
   */
  function ExpectedVideoSubType(format: VideoFormat, mt: MediaType): (s: SubType)
    ensures Forced(format) ==> s == VideoSubType(format)
    ensures !Forced(format) ==> s == mt.subtype
  {
    match format
    case XRGB => VideoSubType(VideoFormat.XRGB)
    case ARGB => VideoSubType(VideoFormat.ARGB)
    case YVYU => VideoSubType(VideoFormat.YVYU)
    case YUY2 => VideoSubType(VideoFormat.YUY2)
    case UYVY => VideoSubType(VideoFormat.UYVY)
    case _ => mt.subtype
  }

  /** Whether one stream gets connected: rendering succeeds, or the pin is found and connected. */
  predicate LinkSucceeds(l: LinkOutcome)
  {
    l.renderOk || (l.pinFound && l.connectOk)
  }

  /** The engine operations one stream's connection invokes: render first, pin-to-pin only if rendering failed. */
  function LinkCalls(s: Stream, l: LinkOutcome): (cs: seq<EngineCall>)
    ensures |cs| >= 1 && cs[0] == RenderStream(s)
    ensures FindPin(s) in cs <==> !l.renderOk
    ensures Connect(s) in cs <==> !l.renderOk && l.pinFound
    ensures forall c :: c in cs ==> c == RenderStream(s) || c == FindPin(s) || c == Connect(s)
  {
    [RenderStream(s)] + if l.renderOk then [] else [FindPin(s)] + if l.pinFound then [Connect(s)] else []
  }

  /** Whether a sample callback hands the sample on. */
  predicate Forwards(hasCallback: bool, sample: Option<Sample>)
  {
    && sample.Some? && hasCallback
    && sample.value.length != 0
    && sample.value.pointer.Some?
    && sample.value.times.Some?
  }

  /** The video device SetVideoConfig resolves to: none without a name or path, or when the lookup fails. */
  function VideoSource(c: VideoConfig, lookup: DeviceLookup): (r: Option<FilterId>)
    ensures r.Some? <==> (c.name != [] || c.path != []) && lookup.Found? && lookup.filter.Some?
    ensures r.Some? ==> r == lookup.filter
  {
    if c.name == [] && c.path == [] then None
    else if lookup.NotFound? then None
    else lookup.filter
  }

  /** The audio device SetAudioConfig resolves to; with useVideoDevice, the attached video filter. */
  function AudioSource(c: AudioConfig, videoFilter: Option<FilterId>, lookup: DeviceLookup): (r: Option<FilterId>)
    ensures c.useVideoDevice ==> r == videoFilter
    ensures !c.useVideoDevice ==>
      (r.Some? <==> (c.name != [] || c.path != []) && lookup.Found? && lookup.filter.Some?)
    ensures !c.useVideoDevice && r.Some? ==> r == lookup.filter
  {
    if !c.useVideoDevice && c.name == [] && c.path == [] then None
    else if c.useVideoDevice then videoFilter
    else if lookup.NotFound? then None
    else lookup.filter
  }

  /** The media type a video setup negotiates: the device default, or the selector's choice. */
  function NegotiatedVideo(c: VideoConfig, env: SetupOutcome<VideoStreamCaps>): Option<MediaType>
  {
    if c.useDefaultConfig then env.defaultFormat
    else if env.caps.Some? && env.caps.value.Listed? then
      DShowEnum.Walk(DShowEnum.VideoCandidates(c, env.caps.value.entries), DShowEnum.Closest(false, 0, None)).mt
    else None
  }

  predicate VideoSetupSucceeds(c: VideoConfig, env: SetupOutcome<VideoStreamCaps>)
  {
    env.pinFound && env.hasStreamConfig && NegotiatedVideo(c, env).Some?
    && (c.useDefaultConfig || env.setFormatOk)
  }

  /** The audio selector is only run on capability lists it can score. */
  predicate AudioSetupUsable(c: AudioConfig, env: SetupOutcome<AudioStreamCaps>)
  {
    !c.useDefaultConfig && env.caps.Some? && env.caps.value.Listed? ==>
      DShowEnum.AllAudioCapsUsable(c, env.caps.value.entries)
  }

  function NegotiatedAudio(c: AudioConfig, env: SetupOutcome<AudioStreamCaps>): Option<MediaType>
    requires AudioSetupUsable(c, env)
  {
    if c.useDefaultConfig then env.defaultFormat
    else if env.caps.Some? && env.caps.value.Listed? then
      DShowEnum.Walk(DShowEnum.AudioCandidates(c, env.caps.value.entries), DShowEnum.Closest(false, 0, None)).mt
    else None
  }

  predicate AudioSetupSucceeds(c: AudioConfig, env: SetupOutcome<AudioStreamCaps>)
    requires AudioSetupUsable(c, env)
  {
    env.pinFound && env.hasStreamConfig && NegotiatedAudio(c, env).Some? && env.setFormatOk
  }

  /** The removals SetAudioConfig starts with: a shared video device is not removed. */
  function AudioRemovals(previous: AudioConfig, filter: Option<FilterId>, capture: Option<CaptureFilter>): (r: seq<EngineCall>)
    ensures |r| == if previous.useVideoDevice then 1 else 2
    ensures r[|r| - 1] == RemoveFilter(CaptureNode(capture))
    ensures !previous.useVideoDevice ==> r[0] == RemoveFilter(DeviceNode(filter))
  {
    (if previous.useVideoDevice then [] else [RemoveFilter(DeviceNode(filter))])
    + [RemoveFilter(CaptureNode(capture))]
  }

  /** The resolved video configuration reports the negotiated size, interval and format. */
  predicate ReflectsVideo(c: VideoConfig, mt: MediaType)
  {
    HasBitmapHeader(mt) ==>
      && c.cx == mt.width && c.cy == mt.height && c.frameInterval == mt.interval
      && (VideoFormatOf(mt).Some? ==> c.internalFormat == VideoFormatOf(mt).value)
  }

  /** The resolved audio configuration reports the negotiated rate, channel count and sample format. */
  predicate ReflectsAudio(c: AudioConfig, mt: MediaType)
  {
    c.sampleRate == DWordToInt(mt.rate) && c.channels == mt.channels && c.format == AudioFormatOfBits(mt.bits)
  }

  /**
   * ConvertVideoSettings on a configuration: with a bitmap header, the
   * negotiated size and interval are copied, a recognised subtype becomes the
   * internal format, and `format` follows the internal format only if the two
   * were equal; the device identity, callback and default flag are kept.
   */
  function ConvertedVideo(c: VideoConfig, mt: MediaType): (r: VideoConfig)
    ensures ReflectsVideo(r, mt)
    ensures !HasBitmapHeader(mt) ==> r == c
    ensures HasBitmapHeader(mt) ==>
      r.format == (if c.internalFormat == c.format then r.internalFormat else c.format)
    ensures VideoFormatOf(mt).None? ==> r.internalFormat == c.internalFormat
    ensures r.name == c.name && r.path == c.path
    ensures r.hasCallback == c.hasCallback && r.useDefaultConfig == c.useDefaultConfig
  {
    if !HasBitmapHeader(mt) then c
    else
      var internal := if VideoFormatOf(mt).Some? then VideoFormatOf(mt).value else c.internalFormat;
      c.(cx := mt.width, cy := mt.height, frameInterval := mt.interval, internalFormat := internal,
         format := if c.internalFormat == c.format then internal else c.format)
  }

  /**
   * ConvertAudioSettings on a configuration: the negotiated rate, channel
   * count and sample format are copied; the device identity, callback,
   * flags and mode are kept.
   */
  function ConvertedAudio(c: AudioConfig, mt: MediaType): (r: AudioConfig)
    ensures ReflectsAudio(r, mt)
    ensures r.name == c.name && r.path == c.path && r.hasCallback == c.hasCallback
    ensures r.useVideoDevice == c.useVideoDevice && r.useDefaultConfig == c.useDefaultConfig
    ensures r.mode == c.mode
  {
    c.(sampleRate := DWordToInt(mt.rate), channels := mt.channels, format := AudioFormatOfBits(mt.bits))
  }

  // ---------------------------------------------------------------------
  // The session
  // ---------------------------------------------------------------------

  class HDevice {
    var initialized: bool
    var active: bool
    var videoFilter: Option<FilterId>
    var videoCapture: Option<CaptureFilter>
    var audioFilter: Option<FilterId>
    var audioCapture: Option<CaptureFilter>
    var videoMediaType: Option<MediaType>
    var audioMediaType: Option<MediaType>
    var videoConfig: VideoConfig
    var audioConfig: AudioConfig
    /** The graph-engine operations invoked so far, oldest first. */
    var calls: seq<EngineCall>

    /** A running session is initialized; a filter and its capture sink are attached together, with a media type. */
    ghost predicate Valid()
      reads this
    {
      && (active ==> initialized)
      && (videoFilter.Some? <==> videoCapture.Some?)
      && (audioFilter.Some? <==> audioCapture.Some?)
      && (videoCapture.Some? ==> videoMediaType.Some? && videoCapture.value.stream == Video)
      && (audioCapture.Some? ==> audioMediaType.Some? && audioCapture.value.stream == Audio)
    }

    constructor ()
      ensures Valid()
      ensures !initialized && !active
      ensures videoFilter.None? && videoCapture.None? && videoMediaType.None?
      ensures audioFilter.None? && audioCapture.None? && audioMediaType.None?
      ensures videoConfig == DefaultVideoConfig && audioConfig == DefaultAudioConfig
      ensures calls == []
    {
      initialized, active := false, false;
      videoFilter, videoCapture, videoMediaType := None, None, None;
      audioFilter, audioCapture, audioMediaType := None, None, None;
      videoConfig, audioConfig := DefaultVideoConfig, DefaultAudioConfig;
      calls := [];
    }

    /** Guard: the session has been initialized (Init has run); false is the error path. */
    predicate EnsureInitialized(): (r: bool)
      reads this
      ensures r <==> initialized
    {
      initialized
    }

    /** Guard for operations that need a running session. */
    predicate EnsureActive(): (r: bool)
      reads this
      ensures r <==> active
    {
      active
    }

    /** Guard for operations that reconfigure: they refuse while the session runs. */
    predicate EnsureInactive(): (r: bool)
      reads this
      ensures r <==> !active
    {
      !active
    }

    /** The destructor: a running session is stopped. */
    method Destroy()
      requires Valid()
      modifies this`active, this`calls
      ensures Valid() && !active
      ensures calls == old(calls) + if old(active) then [StopGraph] else []
    {
      if active {
        Stop();
      }
    }

    method AudioCallback(sample: Option<Sample>) returns (delivered: Option<Delivery>)
      ensures delivered.Some? <==> Forwards(audioConfig.hasCallback, sample)
      ensures delivered.Some? ==>
        var s := sample.value;
        delivered.value == Delivery(s.pointer.value, s.length, s.times.value.start, s.times.value.stop)
    {
      if sample.None? || !audioConfig.hasCallback {
        return None;
      }
      var s := sample.value;
      if s.length == 0 {
        return None;
      }
      if s.pointer.None? {
        return None;
      }
      if s.times.None? {
        return None;
      }
      return Some(Delivery(s.pointer.value, s.length, s.times.value.start, s.times.value.stop));
    }

    method VideoCallback(sample: Option<Sample>) returns (delivered: Option<Delivery>)
      ensures delivered.Some? <==> Forwards(videoConfig.hasCallback, sample)
      ensures delivered.Some? ==>
        var s := sample.value;
        delivered.value == Delivery(s.pointer.value, s.length, s.times.value.start, s.times.value.stop)
    {
      if sample.None? || !videoConfig.hasCallback {
        return None;
      }
      var s := sample.value;
      if s.length == 0 {
        return None;
      }
      if s.pointer.None? {
        return None;
      }
      if s.times.None? {
        return None;
      }
      return Some(Delivery(s.pointer.value, s.length, s.times.value.start, s.times.value.stop));
    }

    /** Copies the negotiated size, interval and format into the video configuration. */
    method ConvertVideoSettings()
      requires videoMediaType.Some?
      modifies this`videoConfig
      ensures videoConfig == ConvertedVideo(old(videoConfig), videoMediaType.value)
    {
      var mt := videoMediaType.value;
      if HasBitmapHeader(mt) {
        videoConfig := videoConfig.(cx := mt.width, cy := mt.height, frameInterval := mt.interval);
        var same := videoConfig.internalFormat == videoConfig.format;
        match VideoFormatOf(mt) {
          case Some(f) => videoConfig := videoConfig.(internalFormat := f);
          case None =>
        }
        if same {
          videoConfig := videoConfig.(format := videoConfig.internalFormat);
        }
      }
    }

    /** Copies the negotiated rate, channel count and sample format into the audio configuration. */
    method ConvertAudioSettings()
      requires audioMediaType.Some?
      modifies this`audioConfig
      ensures audioConfig == ConvertedAudio(old(audioConfig), audioMediaType.value)
    {
      var mt := audioMediaType.value;
      audioConfig := audioConfig.(sampleRate := DWordToInt(mt.rate), channels := mt.channels);
      if mt.bits == 16 {
        audioConfig := audioConfig.(format := AudioFormat.Wave16bit);
      } else if mt.bits == 32 {
        audioConfig := audioConfig.(format := AudioFormat.WaveFloat);
      } else {
        audioConfig := audioConfig.(format := AudioFormat.Unknown);
      }
    }

    /**
     * Negotiates the video format on `filter` and attaches it with a new
     * capture sink. On failure nothing is attached, though a media type the
     * selector chose stays recorded when SetFormat is what failed.
     */
    method SetupVideoCapture(filter: FilterId, env: SetupOutcome<VideoStreamCaps>) returns (ok: bool)
      requires Valid()
      requires videoFilter.None? && videoCapture.None? && videoMediaType.None?
      modifies this`videoMediaType, this`videoConfig, this`videoCapture, this`videoFilter, this`calls
      ensures Valid()
      ensures ok <==> VideoSetupSucceeds(old(videoConfig), env)
      ensures ok ==>
        && videoFilter == Some(filter)
        && videoMediaType == NegotiatedVideo(old(videoConfig), env)
        && videoConfig == ConvertedVideo(old(videoConfig), videoMediaType.value)
        && videoCapture == Some(CaptureFilter(Video, videoMediaType.value.major,
                                              ExpectedVideoSubType(videoConfig.format, videoMediaType.value)))
        && calls == old(calls) + [AddFilter(CaptureSink(videoCapture.value)), AddFilter(DeviceFilter(filter))]
      ensures !ok ==>
        && videoFilter.None? && videoCapture.None?
        && videoConfig == old(videoConfig) && calls == old(calls)
        && (videoMediaType.None? || (videoMediaType == NegotiatedVideo(old(videoConfig), env)
                                     && !old(videoConfig).useDefaultConfig && !env.setFormatOk))
      ensures env.pinFound && env.hasStreamConfig && !old(videoConfig).useDefaultConfig
              && NegotiatedVideo(old(videoConfig), env).Some? ==>
                videoMediaType == NegotiatedVideo(old(videoConfig), env)
      ensures videoMediaType == if env.pinFound && env.hasStreamConfig then NegotiatedVideo(old(videoConfig), env) else None
    {
      if !env.pinFound {
        return false;
      }
      if !env.hasStreamConfig {
        return false;
      }
      if videoConfig.useDefaultConfig {
        if env.defaultFormat.None? {
          return false;
        }
        videoMediaType := env.defaultFormat;
      } else {
        var found, mt := DShowEnum.GetClosestVideoMediaType(env.caps, videoConfig, videoMediaType);
        if env.caps.Some? && env.caps.value.Listed? {
          DShowEnum.ClosestVideoFound(videoConfig, env.caps.value.entries, None);
        }
        videoMediaType := mt;
        if !found {
          return false;
        }
        if !env.setFormatOk {
          return false;
        }
      }
      ConvertVideoSettings();
      var capture := CaptureFilter(Video, videoMediaType.value.major,
                                   ExpectedVideoSubType(videoConfig.format, videoMediaType.value));
      videoCapture := Some(capture);
      videoFilter := Some(filter);
      calls := calls + [AddFilter(CaptureSink(capture)), AddFilter(DeviceFilter(filter))];
      ok := true;
    }

    /**
     * Detaches the current video device, then, given a configuration,
     * resolves its device, negotiates a format, attaches it and writes the
     * resolved configuration back to the caller.
     */
    method SetVideoConfig(config: Option<VideoConfig>, lookup: DeviceLookup, env: SetupOutcome<VideoStreamCaps>)
      returns (ok: bool, written: Option<VideoConfig>)
      requires Valid()
      modifies this
      ensures Valid()
      ensures initialized == old(initialized) && active == old(active)
      ensures audioFilter == old(audioFilter) && audioCapture == old(audioCapture)
      ensures audioMediaType == old(audioMediaType) && audioConfig == old(audioConfig)
      ensures !ok ==> written == config
      ensures !(old(initialized) && !old(active)) ==> !ok && unchanged(this)
      ensures old(initialized) && !old(active) ==>
        var removed := old(calls) + [RemoveFilter(DeviceNode(old(videoFilter))),
                                     RemoveFilter(CaptureNode(old(videoCapture)))];
        && (ok <==> config.None? || (VideoSource(config.value, lookup).Some?
                                     && VideoSetupSucceeds(config.value, env)))
        && (!ok || config.None? ==> videoFilter.None? && videoCapture.None? && calls == removed)
        && (config.None? ==> videoMediaType.None? && videoConfig == old(videoConfig))
        && (config.Some? && VideoSource(config.value, lookup).None? ==>
              videoMediaType.None? && videoConfig == old(videoConfig))
        && (config.Some? && VideoSource(config.value, lookup).Some? && !ok ==> videoConfig == config.value)
        && (config.Some? && VideoSource(config.value, lookup).Some? && env.pinFound && env.hasStreamConfig
            && !config.value.useDefaultConfig && NegotiatedVideo(config.value, env).Some? ==>
              videoMediaType == NegotiatedVideo(config.value, env))
        && (config.Some? && VideoSource(config.value, lookup).Some? ==>
              videoMediaType == if env.pinFound && env.hasStreamConfig then NegotiatedVideo(config.value, env) else None)
        && (ok && config.Some? ==>
              && written == Some(videoConfig)
              && videoFilter == VideoSource(config.value, lookup)
              && videoMediaType == NegotiatedVideo(config.value, env)
              && videoConfig == ConvertedVideo(config.value, videoMediaType.value)
              && videoCapture == Some(CaptureFilter(Video, videoMediaType.value.major,
                                                    ExpectedVideoSubType(videoConfig.format, videoMediaType.value)))
              && calls == removed + [AddFilter(CaptureSink(videoCapture.value)),
                                     AddFilter(DeviceFilter(videoFilter.value))])
    {
      written := config;
      if !EnsureInitialized() || !EnsureInactive() {
        return false, written;
      }
      videoMediaType := None;
      calls := calls + [RemoveFilter(DeviceNode(videoFilter)), RemoveFilter(CaptureNode(videoCapture))];
      videoFilter, videoCapture := None, None;

      if config.None? {
        return true, written;
      }
      var c := config.value;
      if c.name == [] && c.path == [] {
        return false, written;
      }
      if lookup.NotFound? {
        return false, written;
      }
      if lookup.filter.None? {
        return false, written;
      }
      videoConfig := c;
      ok := SetupVideoCapture(lookup.filter.value, env);
      if !ok {
        return false, written;
      }
      written := Some(videoConfig);
    }

    /** Negotiates the audio format on `filter` and attaches it with a new capture sink. */
    method SetupAudioCapture(filter: FilterId, env: SetupOutcome<AudioStreamCaps>) returns (ok: bool)
      requires Valid()
      requires audioFilter.None? && audioCapture.None? && audioMediaType.None?
      requires AudioSetupUsable(audioConfig, env)
      modifies this`audioMediaType, this`audioConfig, this`audioCapture, this`audioFilter, this`calls
      ensures Valid()
      ensures ok <==> AudioSetupSucceeds(old(audioConfig), env)
      ensures ok ==>
        && audioFilter == Some(filter)
        && audioMediaType == NegotiatedAudio(old(audioConfig), env)
        && audioConfig == ConvertedAudio(old(audioConfig), audioMediaType.value)
        && audioCapture == Some(CaptureFilter(Audio, audioMediaType.value.major, audioMediaType.value.subtype))
        && calls == old(calls) + [AddFilter(CaptureSink(audioCapture.value)), AddFilter(DeviceFilter(filter))]
      ensures !ok ==>
        && audioFilter.None? && audioCapture.None?
        && audioConfig == old(audioConfig) && calls == old(calls)
        && (audioMediaType.None? || (audioMediaType == NegotiatedAudio(old(audioConfig), env) && !env.setFormatOk))
      ensures env.pinFound && env.hasStreamConfig && NegotiatedAudio(old(audioConfig), env).Some? ==>
                audioMediaType == NegotiatedAudio(old(audioConfig), env)
      ensures audioMediaType == if env.pinFound && env.hasStreamConfig then NegotiatedAudio(old(audioConfig), env) else None
    {
      if !env.pinFound {
        return false;
      }
      if !env.hasStreamConfig {
        return false;
      }
      if audioConfig.useDefaultConfig {
        if env.defaultFormat.None? {
          return false;
        }
        audioMediaType := env.defaultFormat;
      } else {
        var found, mt := DShowEnum.GetClosestAudioMediaType(env.caps, audioConfig, audioMediaType);
        if env.caps.Some? && env.caps.value.Listed? {
          DShowEnum.ClosestAudioFound(audioConfig, env.caps.value.entries, None);
        }
        audioMediaType := mt;
        if !found {
          return false;
        }
      }
      if !env.setFormatOk {
        return false;
      }
      ConvertAudioSettings();
      var capture := CaptureFilter(Audio, audioMediaType.value.major, audioMediaType.value.subtype);
      audioCapture := Some(capture);
      audioFilter := Some(filter);
      // the library then assigns the configuration to itself, which changes nothing
      calls := calls + [AddFilter(CaptureSink(capture)), AddFilter(DeviceFilter(filter))];
      ok := true;
    }

    /**
     * Detaches the current audio device (leaving a shared video device in
     * the graph), then, given a configuration, resolves its device, records
     * the configuration, and in Capture mode negotiates and attaches it.
     */
    method SetAudioConfig(config: Option<AudioConfig>, lookup: DeviceLookup, env: SetupOutcome<AudioStreamCaps>)
      returns (ok: bool, written: Option<AudioConfig>)
      requires Valid()
      requires config.Some? ==> AudioSetupUsable(config.value, env)
      modifies this
      ensures Valid()
      ensures initialized == old(initialized) && active == old(active)
      ensures videoFilter == old(videoFilter) && videoCapture == old(videoCapture)
      ensures videoMediaType == old(videoMediaType) && videoConfig == old(videoConfig)
      ensures !ok ==> written == config
      ensures !(old(initialized) && !old(active)) ==> !ok && unchanged(this)
      ensures old(initialized) && !old(active) && config.None? ==>
        && ok && audioFilter.None? && audioCapture.None? && audioMediaType.None?
        && audioConfig == old(audioConfig)
        && calls == old(calls) + AudioRemovals(old(audioConfig), old(audioFilter), old(audioCapture))
      ensures old(initialized) && !old(active) && config.Some? ==>
        Attached(config.value, old(videoFilter), lookup, env, old(audioConfig), ok,
                 old(calls) + AudioRemovals(old(audioConfig), old(audioFilter), old(audioCapture)))
        && (ok ==> written == Some(audioConfig))
    {
      written := config;
      if !EnsureInitialized() || !EnsureInactive() {
        return false, written;
      }
      if !audioConfig.useVideoDevice {
        calls := calls + [RemoveFilter(DeviceNode(audioFilter))];
      }
      calls := calls + [RemoveFilter(CaptureNode(audioCapture))];
      audioFilter, audioCapture := None, None;
      audioMediaType := None;

      if config.None? {
        return true, written;
      }
      ok := AttachAudio(config.value, lookup, env);
      if ok {
        written := Some(audioConfig);
      }
    }

    /**
     * The audio half of a configuration: the device is resolved (the video
     * device's own filter with useVideoDevice), the configuration recorded,
     * and in Capture mode negotiated and attached; the other modes fail.
     */
    ghost predicate Attached(c: AudioConfig, videoSource: Option<FilterId>, lookup: DeviceLookup,
                             env: SetupOutcome<AudioStreamCaps>, previous: AudioConfig, ok: bool,
                             before: seq<EngineCall>)
      requires AudioSetupUsable(c, env)
      reads this
    {
      var source := AudioSource(c, videoSource, lookup);
      && (ok <==> source.Some? && c.mode == Capture && AudioSetupSucceeds(c, env))
      && (!ok ==> audioFilter.None? && audioCapture.None? && calls == before)
      && (source.None? ==> audioMediaType.None? && audioConfig == previous)
      && (source.Some? && !ok ==> audioConfig == c)
      && (source.Some? && c.mode != Capture ==> audioMediaType.None?)
      && ((source.Some? && c.mode == Capture && env.pinFound && env.hasStreamConfig && NegotiatedAudio(c, env).Some?)
            ==> audioMediaType == NegotiatedAudio(c, env))
      && (source.Some? && c.mode == Capture ==>
            audioMediaType == if env.pinFound && env.hasStreamConfig then NegotiatedAudio(c, env) else None)
      && (ok ==>
            && audioFilter == source
            && audioMediaType == NegotiatedAudio(c, env) && audioMediaType.Some?
            && audioCapture == Some(CaptureFilter(Audio, audioMediaType.value.major, audioMediaType.value.subtype))
            && audioConfig == ConvertedAudio(c, audioMediaType.value)
            && calls == before + [AddFilter(CaptureSink(audioCapture.value)),
                                  AddFilter(DeviceFilter(audioFilter.value))])
    }

    method AttachAudio(c: AudioConfig, lookup: DeviceLookup, env: SetupOutcome<AudioStreamCaps>) returns (ok: bool)
      requires Valid()
      requires audioFilter.None? && audioCapture.None? && audioMediaType.None?
      requires AudioSetupUsable(c, env)
      modifies this`audioMediaType, this`audioConfig, this`audioCapture, this`audioFilter, this`calls
      ensures Valid()
      ensures Attached(c, videoFilter, lookup, env, old(audioConfig), ok, old(calls))
    {
      if !c.useVideoDevice && c.name == [] && c.path == [] {
        return false;
      }
      var filter: Option<FilterId>;
      if c.useVideoDevice {
        if videoFilter.None? {
          return false;
        }
        filter := videoFilter;
      } else {
        if lookup.NotFound? {
          return false;
        }
        filter := lookup.filter;
      }
      if filter.None? {
        return false;
      }
      audioConfig := c;
      if c.mode == Capture {
        ok := SetupAudioCapture(filter.value, env);
        return ok;
      }
      return false;
    }

    /** Creates the graph, the capture graph builder and the media control; once only. */
    method CreateGraph(steps: GraphSteps) returns (ok: bool)
      requires Valid()
      modifies this`initialized
      ensures Valid()
      ensures old(initialized) ==> !ok && initialized
      ensures !old(initialized) ==>
        initialized == ok
        && (ok <==> steps.graphCreated && steps.builderCreated && steps.controlFound && steps.graphAttached)
    {
      if initialized {
        return false;
      }
      if !steps.graphCreated {
        return false;
      }
      if !steps.builderCreated {
        return false;
      }
      if !steps.controlFound {
        return false;
      }
      if !steps.graphAttached {
        return false;
      }
      initialized := true;
      return true;
    }

    /** Asks the engine for a pin-to-pin connection of one stream. */
    method ConnectPins(s: Stream, pinFound: bool, connectOk: bool) returns (ok: bool)
      modifies this`calls
      ensures !(initialized && !active) ==> !ok && calls == old(calls)
      ensures initialized && !active ==>
        ok == (pinFound && connectOk)
        && calls == old(calls) + [FindPin(s)] + if pinFound then [Connect(s)] else []
    {
      if !EnsureInitialized() || !EnsureInactive() {
        return false;
      }
      calls := calls + [FindPin(s)];
      if !pinFound {
        return false;
      }
      calls := calls + [Connect(s)];
      return connectOk;
    }

    /** Asks the engine to render one stream from its device filter to its capture sink. */
    method RenderFilters(s: Stream, renderOk: bool) returns (ok: bool)
      modifies this`calls
      ensures !(initialized && !active) ==> !ok && calls == old(calls)
      ensures initialized && !active ==> ok == renderOk && calls == old(calls) + [RenderStream(s)]
    {
      if !EnsureInitialized() || !EnsureInactive() {
        return false;
      }
      calls := calls + [RenderStream(s)];
      return renderOk;
    }

    /** One stream of ConnectFilters: rendering, then a pin-to-pin connection if rendering failed. */
    method Link(s: Stream, l: LinkOutcome) returns (ok: bool)
      requires initialized && !active
      modifies this`calls
      ensures ok == LinkSucceeds(l) && calls == old(calls) + LinkCalls(s, l)
    {
      ok := RenderFilters(s, l.renderOk);
      if !ok {
        ok := ConnectPins(s, l.pinFound, l.connectOk);
      }
    }

    /**
     * Connects video, then audio; each stream tries rendering first and a
     * pin-to-pin connection only if rendering failed; a failed video
     * connection skips audio.
     */
    method ConnectFilters(video: LinkOutcome, audio: LinkOutcome) returns (ok: bool)
      requires Valid()
      modifies this`calls
      ensures !(initialized && !active) ==> !ok && calls == old(calls)
      ensures initialized && !active ==>
        var videoOk := videoCapture.None? || LinkSucceeds(video);
        && (ok <==> videoOk && (audioCapture.None? || LinkSucceeds(audio)))
        && calls == old(calls)
                    + (if videoCapture.Some? then LinkCalls(Video, video) else [])
                    + (if audioCapture.Some? && videoOk then LinkCalls(Audio, audio) else [])
    {
      if !EnsureInitialized() || !EnsureInactive() {
        return false;
      }
      ok := true;
      if videoCapture.Some? {
        ok := Link(Video, video);
      }
      if audioCapture.Some? && ok {
        ok := Link(Audio, audio);
      }
    }

    /** Runs the graph; `hr` is what Run returns. */
    method Start(hr: HResult) returns (r: Result)
      requires Valid()
      modifies this`active, this`calls
      ensures Valid()
      ensures !(old(initialized) && !old(active)) ==> r == Error && active == old(active) && calls == old(calls)
      ensures old(initialized) && !old(active) ==>
        && calls == old(calls) + [Run]
        && (r == Success <==> !Failed(hr))
        && (r == InUse <==> hr == DeviceInUse)
        && (active <==> r == Success)
    {
      if !EnsureInitialized() || !EnsureInactive() {
        return Error;
      }
      calls := calls + [Run];
      if Failed(hr) {
        if hr == DeviceInUse {
          return InUse;
        } else {
          return Error;
        }
      }
      active := true;
      return Success;
    }

    /** Stops a running graph; does nothing otherwise. */
    method Stop()
      requires Valid()
      modifies this`active, this`calls
      ensures Valid() && !active
      ensures calls == old(calls) + if old(active) then [StopGraph] else []
    {
      if active {
        calls := calls + [StopGraph];
        active := false;
      }
    }
  }

  /** Stopping twice stops the engine at most once. */
  method StopTwice(d: HDevice)
    requires d.Valid()
    modifies d
    ensures d.Valid() && !d.active
    ensures d.calls == old(d.calls) + if old(d.active) then [StopGraph] else []
  {
    d.Stop();
    d.Stop();
  }

  /** A session that is already running refuses Start without invoking Run again. */
  method StartWhileRunning(d: HDevice, hr: HResult) returns (r: Result)
    requires d.Valid() && d.active
    modifies d
    ensures r == Error && d.active && d.calls == old(d.calls)
  {
    r := d.Start(hr);
  }

  /** Clearing the video configuration on a freshly created session succeeds, removing only null filters. */
  method ClearVideoOnFreshSession(steps: GraphSteps, lookup: DeviceLookup, env: SetupOutcome<VideoStreamCaps>)
    returns (created: bool, ok: bool, log: seq<EngineCall>)
    ensures created ==> ok && log == [RemoveFilter(None), RemoveFilter(None)]
    ensures !created ==> !ok && log == []
  {
    var d := new HDevice();
    created := d.CreateGraph(steps);
    var written;
    ok, written := d.SetVideoConfig(None, lookup, env);
    log := d.calls;
  }
}

=== FILE: dshow_enum.dfy ===
/**
 * The closest-capability selector: walking a capture pin's capability
 * records in order, scoring each against the caller's request by a
 * per-axis deficit, keeping the first record with the smallest score and
 * stopping on a perfect one; and the plain capability listing.
 */
module DShowEnum {
  import opened Types

  function Abs(x: int): nat
  {
    if x < 0 then -x else x
  }

  // ---------------------------------------------------------------------
  // Granularity clamp and deficits
  // ---------------------------------------------------------------------

  /**
   * Moves `val` down to the granularity grid anchored at `minVal`. The
   * library's `%` truncates toward zero; on the non-negative dividend
   * `val - minVal` it agrees with Dafny's, for either sign of `granularity`.
   * A zero granularity would divide by zero.
   */
  function ClampToGranularity(val: int, minVal: int, granularity: int): (r: int)
    requires minVal <= val && granularity != 0
    ensures minVal <= r <= val
    ensures (r - minVal) % granularity == 0
    ensures val - r < Abs(granularity)
  {
    var d := val - minVal;
    DivModFacts(d, granularity);
    val - d % granularity
  }

  lemma DivModFacts(d: int, g: int)
    requires 0 <= d && g != 0
    ensures 0 <= d % g < Abs(g)
    ensures d % g <= d
    ensures (d - d % g) % g == 0
  {
    var q := d / g;
    assert d == g * q + d % g;
    assert d - d % g == g * q;
    MultipleMod(g, q);
  }

  lemma MultipleMod(g: int, q: int)
    requires g != 0
    ensures (g * q) % g == 0
  {
    var m, d := (g * q) % g, (g * q) / g;
    assert g * q == g * d + m;
    assert g * (q - d) == m;
    if q != d {
      AbsProduct(g, q - d);
      assert false;
    }
  }

  /** A value already on the grid is left where it is, so clamping twice is clamping once. */
  lemma ClampIdempotent(val: int, minVal: int, g: int)
    requires minVal <= val && g != 0
    ensures (val - minVal) % g == 0 ==> ClampToGranularity(val, minVal, g) == val
    ensures ClampToGranularity(ClampToGranularity(val, minVal, g), minVal, g)
            == ClampToGranularity(val, minVal, g)
  {
  }

  /** The clamp gives the largest grid value between `minVal` and `val`. */
  lemma ClampIsLargestOnGrid(val: int, minVal: int, g: int, a: int)
    requires minVal <= val && g != 0
    requires minVal <= a <= val && (a - minVal) % g == 0
    ensures a <= ClampToGranularity(val, minVal, g)
  {
    var r := ClampToGranularity(val, minVal, g);
    if a > r {
      var ka := (a - minVal) / g;
      var kr := (r - minVal) / g;
      assert a - minVal == g * ka;
      assert r - minVal == g * kr;
      assert a - r == g * (ka - kr);
      var k := ka - kr;
      assert k != 0;
      AbsProduct(g, k);
      assert false;
    }
  }

  lemma AbsProduct(g: int, k: int)
    requires g != 0 && k != 0
    ensures Abs(g * k) >= Abs(g)
  {
    var a: int, b: int := Abs(g), Abs(k);
    PositiveProduct(a, b);
    if g > 0 && k < 0 {
      assert g * k == -(a * b);
    } else if g < 0 && k > 0 {
      assert g * k == -(a * b);
    } else if g < 0 && k < 0 {
      assert g * k == a * b;
    }
  }

  lemma PositiveProduct(a: int, b: int)
    requires a > 0 && b > 0
    ensures a * b >= a
  {
    assert a * b == a * (b - 1) + a;
  }

  /** Distance of a requested value outside [lo, hi] (the video axes and the sample rate). */
  function RangeDeficit(req: int, lo: int, hi: int): (d: int)
    ensures d >= 0
    ensures d == 0 <==> lo <= req <= hi
    ensures req < lo ==> d == lo - req
    ensures lo <= req && hi < req ==> d == req - hi
  {
    if req < lo then lo - req
    else if req > hi then req - hi
    else 0
  }

  /**
   * The channel deficit as the library computes it: the second comparison
   * is the reverse of the range test, so a request inside [lo, hi) scores
   * negative and a request at or above the maximum scores 0.
   */
  function ChannelDeficit(req: int, lo: int, hi: int): (d: int)
    ensures req < lo ==> d == lo - req && d > 0
    ensures lo <= req < hi ==> d == req - hi && d < 0
    ensures d == 0 <==> lo <= req && hi <= req
  {
    if req < lo then lo - req
    else if hi > req then req - hi
    else 0
  }

  /** The channel deficit agrees with the range deficit only below the minimum or exactly at the maximum. */
  lemma ChannelDeficitAgreesOnlyAt(req: int, lo: int, hi: int)
    ensures ChannelDeficit(req, lo, hi) == RangeDeficit(req, lo, hi) <==> req < lo || req == hi
  {
  }

  // ---------------------------------------------------------------------
  // Reading a capability record
  // ---------------------------------------------------------------------

  /**
   * Get_FORMAT_VideoInfo_Data: no record for an unrecognised subtype or a
   * null caps block; a record with any zero size bound takes the bitmap's
   * own size as a single allowed size; granularities are at least 1.
   */
  function GetVideoInfoData(mt: MediaType, data: Option<VideoStreamCaps>): (r: Option<VideoInfo>)
    ensures r.None? <==> VideoFormatOf(mt).None? || data.None?
    ensures r.Some? ==>
      var info, c := r.value, data.value;
      && info.format == VideoFormatOf(mt).value
      && info.granularityCX >= 1 && info.granularityCY >= 1
      && (c.granularityX >= 1 ==> info.granularityCX == c.granularityX)
      && (c.granularityY >= 1 ==> info.granularityCY == c.granularityY)
      && (c.granularityX < 1 ==> info.granularityCX == 1)
      && (c.granularityY < 1 ==> info.granularityCY == 1)
      && info.minInterval == c.minInterval && info.maxInterval == c.maxInterval
      && (c.minCX == 0 || c.minCY == 0 || c.maxCX == 0 || c.maxCY == 0 ==>
            info.minCX == info.maxCX == mt.width && info.minCY == info.maxCY == mt.height)
      && (c.minCX != 0 && c.minCY != 0 && c.maxCX != 0 && c.maxCY != 0 ==>
            info.minCX == c.minCX && info.maxCX == c.maxCX
            && info.minCY == c.minCY && info.maxCY == c.maxCY)
  {
    match VideoFormatOf(mt)
    case None => None
    case Some(format) =>
      match data
      case None => None
      case Some(c) =>
        var degenerate := c.minCX == 0 || c.minCY == 0 || c.maxCX == 0 || c.maxCY == 0;
        Some(VideoInfo(
          format,
          if degenerate then mt.width else c.minCX,
          if degenerate then mt.height else c.minCY,
          if degenerate then mt.width else c.maxCX,
          if degenerate then mt.height else c.maxCY,
          if c.granularityX < 1 then 1 else c.granularityX,
          if c.granularityY < 1 then 1 else c.granularityY,
          c.minInterval, c.maxInterval))
  }

  /**
   * Get_FORMAT_WaveFormatEx_Data: the sample size names the format (16 bits:
   * integer, 32 bits: float, otherwise unset); the ranges and granularities
   * are copied as reported, a zero granularity included.
   */
  function GetWaveFormatExData(mt: MediaType, c: AudioStreamCaps): (info: AudioInfo)
    ensures info.format == Some(AudioFormat.Wave16bit) <==> mt.bits == 16
    ensures info.format == Some(AudioFormat.WaveFloat) <==> mt.bits == 32
    ensures info.format.None? <==> mt.bits != 16 && mt.bits != 32
    ensures info.channelsGranularity == c.channelsGranularity
    ensures info.sampleRateGranularity == c.rateGranularity
    ensures info.minChannels == c.minChannels && info.maxChannels == c.maxChannels
    ensures info.minSampleRate == c.minRate && info.maxSampleRate == c.maxRate
  {
    var format :=
      if mt.bits == 16 then Some(AudioFormat.Wave16bit)
      else if mt.bits == 32 then Some(AudioFormat.WaveFloat)
      else None;
    AudioInfo(format, c.minChannels, c.maxChannels, c.channelsGranularity,
              c.minRate, c.maxRate, c.rateGranularity)
  }

  // ---------------------------------------------------------------------
  // Scoring one record
  // ---------------------------------------------------------------------

  /** A scored record: its total deficit and the media type it would yield. */
  datatype Candidate = Candidate(total: int, mt: MediaType)

  predicate VideoFormatAccepted(requested: VideoFormat, offered: VideoFormat)
  {
    requested == VideoFormat.Any || requested == offered
  }

  predicate AudioFormatAccepted(requested: AudioFormat, offered: Option<AudioFormat>)
  {
    requested == AudioFormat.Any || offered == Some(requested)
  }

  /**
   * The scoring half of ClosestVideoMTCallback: None when the record is
   * skipped; otherwise the summed deficit of width, height and frame interval
   * and the copied media type with every zero-deficit axis set to the request
   * (sizes clamped to the grid).
   */
  function VideoCandidate(config: VideoConfig, e: Entry<VideoStreamCaps>): (r: Option<Candidate>)
    ensures r.Some? <==>
      && e.mt.formatType == FormatVideoInfo
      && GetVideoInfoData(e.mt, e.data).Some?
      && VideoFormatAccepted(config.internalFormat, GetVideoInfoData(e.mt, e.data).value.format)
    ensures r.Some? ==>
      var info, mt := GetVideoInfoData(e.mt, e.data).value, r.value.mt;
      var inX := info.minCX <= config.cx <= info.maxCX;
      var inY := info.minCY <= config.cy <= info.maxCY;
      var inF := info.minInterval <= config.frameInterval <= info.maxInterval;
      && r.value.total == RangeDeficit(config.cx, info.minCX, info.maxCX)
                          + RangeDeficit(config.cy, info.minCY, info.maxCY)
                          + RangeDeficit(config.frameInterval, info.minInterval, info.maxInterval)
      && r.value.total >= 0
      && (r.value.total == 0 <==> inX && inY && inF)
      && (inX ==> info.minCX <= mt.width <= config.cx && mt.width <= info.maxCX
                  && (mt.width - info.minCX) % info.granularityCX == 0
                  && config.cx - mt.width < info.granularityCX)
      && (!inX ==> mt.width == e.mt.width)
      && (inY ==> info.minCY <= mt.height <= config.cy && mt.height <= info.maxCY
                  && (mt.height - info.minCY) % info.granularityCY == 0
                  && config.cy - mt.height < info.granularityCY)
      && (!inY ==> mt.height == e.mt.height)
      && (inF ==> mt.interval == config.frameInterval)
      && (!inF ==> mt.interval == e.mt.interval)
      && mt.(width := e.mt.width, height := e.mt.height, interval := e.mt.interval) == e.mt
  {
    if e.mt.formatType != FormatVideoInfo then None
    else
      match GetVideoInfoData(e.mt, e.data)
      case None => None
      case Some(info) =>
        if !VideoFormatAccepted(config.internalFormat, info.format) then None
        else
          var xVal := RangeDeficit(config.cx, info.minCX, info.maxCX);
          var yVal := RangeDeficit(config.cy, info.minCY, info.maxCY);
          var frameVal := RangeDeficit(config.frameInterval, info.minInterval, info.maxInterval);
          var width := if xVal == 0 then ClampToGranularity(config.cx, info.minCX, info.granularityCX) else e.mt.width;
          var height := if yVal == 0 then ClampToGranularity(config.cy, info.minCY, info.granularityCY) else e.mt.height;
          var interval := if frameVal == 0 then config.frameInterval else e.mt.interval;
          Some(Candidate(frameVal + yVal + xVal, e.mt.(width := width, height := height, interval := interval)))
  }

  /**
   * The library reads an audio caps block without a null check and divides
   * by its granularities; this says the block is there and that every
   * granularity the scoring would divide by is nonzero.
   */
  predicate AudioCapsUsable(config: AudioConfig, oe: Option<Entry<AudioStreamCaps>>)
  {
    oe.Some? && oe.value.mt.formatType == FormatWaveFormatEx ==>
      && oe.value.data.Some?
      && var c := oe.value.data.value;
         (ChannelDeficit(config.channels, c.minChannels, c.maxChannels) == 0 ==> c.channelsGranularity != 0)
         && (RangeDeficit(config.sampleRate, c.minRate, c.maxRate) == 0 ==> c.rateGranularity != 0)
  }

  /**
   * The scoring half of ClosestAudioMTCallback: None when the record is
   * skipped; otherwise sample-rate deficit plus channel deficit (as the
   * library computes it) and the copied WAVEFORMATEX with the channel count,
   * block alignment, sample rate and average byte rate rewritten.
   */
  function AudioCandidate(config: AudioConfig, e: Entry<AudioStreamCaps>): (r: Option<Candidate>)
    requires AudioCapsUsable(config, Some(e))
    ensures r.Some? <==>
      e.mt.formatType == FormatWaveFormatEx
      && AudioFormatAccepted(config.format, GetWaveFormatExData(e.mt, e.data.value).format)
    ensures r.Some? ==>
      var info, mt := GetWaveFormatExData(e.mt, e.data.value), r.value.mt;
      var rateVal := RangeDeficit(config.sampleRate, info.minSampleRate, info.maxSampleRate);
      var chVal := ChannelDeficit(config.channels, info.minChannels, info.maxChannels);
      && r.value.total == rateVal + chVal
      && (chVal == 0 ==>
            mt.channels == ToWord(ClampToGranularity(config.channels, info.minChannels, info.channelsGranularity))
            && mt.blockAlign == ToWord(e.mt.bits * mt.channels / 8))
      && (chVal != 0 ==> mt.channels == e.mt.channels && mt.blockAlign == e.mt.blockAlign)
      && (rateVal == 0 ==>
            mt.rate == ToDWord(ClampToGranularity(config.sampleRate, info.minSampleRate, info.sampleRateGranularity)))
      && (rateVal != 0 ==> mt.rate == e.mt.rate)
      && mt.avgBytes == ToDWord(mt.rate * mt.blockAlign)
      && mt.(channels := e.mt.channels, blockAlign := e.mt.blockAlign,
             rate := e.mt.rate, avgBytes := e.mt.avgBytes) == e.mt
  {
    if e.mt.formatType != FormatWaveFormatEx then None
    else
      var info := GetWaveFormatExData(e.mt, e.data.value);
      if !AudioFormatAccepted(config.format, info.format) then None
      else
        var sampleRateVal := RangeDeficit(config.sampleRate, info.minSampleRate, info.maxSampleRate);
        var channelsVal := ChannelDeficit(config.channels, info.minChannels, info.maxChannels);
        var channels: Word :=
          if channelsVal == 0 then ToWord(ClampToGranularity(config.channels, info.minChannels, info.channelsGranularity))
          else e.mt.channels;
        var blockAlign: Word := if channelsVal == 0 then ToWord(e.mt.bits * channels / 8) else e.mt.blockAlign;
        var rate: DWord :=
          if sampleRateVal == 0 then ToDWord(ClampToGranularity(config.sampleRate, info.minSampleRate, info.sampleRateGranularity))
          else e.mt.rate;
        Some(Candidate(sampleRateVal + channelsVal,
          e.mt.(channels := channels, blockAlign := blockAlign, rate := rate, avgBytes := ToDWord(rate * blockAlign))))
  }

  /** With no wrap-around in range, a zero channel deficit gives blockAlign = bits * channels / 8 exactly. */
  lemma AudioBlockAlignExact(config: AudioConfig, e: Entry<AudioStreamCaps>)
    requires AudioCapsUsable(config, Some(e))
    requires AudioCandidate(config, e).Some?
    requires 0 <= e.data.value.minChannels
    requires ChannelDeficit(config.channels, e.data.value.minChannels, e.data.value.maxChannels) == 0
    requires config.channels < 0x1_0000
    requires e.mt.bits * config.channels / 8 < 0x1_0000
    ensures var mt := AudioCandidate(config, e).value.mt;
      var c := e.data.value;
      && c.minChannels <= mt.channels <= config.channels
      && mt.channels == ClampToGranularity(config.channels, c.minChannels, c.channelsGranularity)
      && mt.blockAlign == e.mt.bits * mt.channels / 8
  {
    var c := e.data.value;
    var ch := ClampToGranularity(config.channels, c.minChannels, c.channelsGranularity);
    DivMonotone(e.mt.bits, ch, config.channels);
  }

  lemma DivMonotone(b: int, x: int, y: int)
    requires 0 <= b && 0 <= x <= y
    ensures 0 <= b * x / 8 <= b * y / 8
  {
    assert b * x <= b * y;
  }

  // ---------------------------------------------------------------------
  // The accumulator and the walk
  // ---------------------------------------------------------------------

  /** ClosestVideoData / ClosestAudioData: whether a record was taken, its score, the media type. */
  datatype Closest = Closest(found: bool, bestVal: int, mt: Option<MediaType>)

  /** What a callback returns: the new accumulator, and whether to keep walking. */
  datatype Step = Step(acc: Closest, more: bool)

  /**
   * The accumulator half of both callbacks: a scored record is taken when
   * nothing was taken yet or when it scores strictly lower; taking a record
   * with score 0 ends the walk.
   */
  function Offer(acc: Closest, c: Option<Candidate>): (s: Step)
    ensures c.None? ==> s == Step(acc, true)
    ensures c.Some? && (!acc.found || acc.bestVal > c.value.total) ==>
      s.acc == Closest(true, c.value.total, Some(c.value.mt)) && (s.more <==> c.value.total != 0)
    ensures c.Some? && acc.found && acc.bestVal <= c.value.total ==> s == Step(acc, true)
  {
    match c
    case None => Step(acc, true)
    case Some(cand) =>
      if !acc.found || acc.bestVal > cand.total then
        Step(Closest(true, cand.total, Some(cand.mt)), cand.total != 0)
      else Step(acc, true)
  }

  /** The EnumPinCaps walk over scored records: in order, until a callback says stop. */
  function Walk(cs: seq<Option<Candidate>>, acc: Closest): (r: Closest)
    ensures acc.found ==> r.found && r.bestVal <= acc.bestVal
    ensures !r.found ==> r == acc
    decreases |cs|
  {
    if cs == [] then acc
    else
      var st := Offer(acc, cs[0]);
      if st.more then Walk(cs[1..], st.acc) else st.acc
  }

  /** Whether the walk is ended early by a record taken with score 0. */
  predicate Stops(cs: seq<Option<Candidate>>, acc: Closest)
    decreases |cs|
  {
    cs != [] && (var st := Offer(acc, cs[0]); !st.more || Stops(cs[1..], st.acc))
  }

  predicate Scored(cs: seq<Option<Candidate>>, j: int)
  {
    0 <= j < |cs| && cs[j].Some?
  }

  /** Record i is the first record with the walk's best score, and the walk's media type is its. */
  predicate FirstBest(cs: seq<Option<Candidate>>, i: int, r: Closest)
  {
    && Scored(cs, i)
    && cs[i].value.total == r.bestVal
    && r.mt == Some(cs[i].value.mt)
    && forall j :: 0 <= j < i && Scored(cs, j) ==> cs[j].value.total > r.bestVal
  }

  lemma {:induction false} WalkFound(cs: seq<Option<Candidate>>, acc: Closest)
    requires acc.found ==> acc.mt.Some?
    ensures Walk(cs, acc).found <==> acc.found || exists j :: Scored(cs, j)
    ensures Walk(cs, acc).found ==> Walk(cs, acc).mt.Some?
    ensures !Walk(cs, acc).found ==> Walk(cs, acc) == acc
  {
    if cs != [] {
      var st := Offer(acc, cs[0]);
      if cs[0].Some? {
        assert Scored(cs, 0);
      }
      if st.more {
        WalkFound(cs[1..], st.acc);
        forall j | Scored(cs[1..], j) ensures Scored(cs, j + 1) { }
        forall j | Scored(cs, j) && j > 0 ensures Scored(cs[1..], j - 1) { }
      }
    }
  }

  /** Scores never rise, and a walk that was not stopped early ends at or below every score it saw. */
  lemma {:induction false} WalkMinimalUnlessStopped(cs: seq<Option<Candidate>>, acc: Closest)
    ensures acc.found ==> Walk(cs, acc).bestVal <= acc.bestVal
    ensures Walk(cs, acc).found && !Stops(cs, acc) ==>
      forall j :: Scored(cs, j) ==> Walk(cs, acc).bestVal <= cs[j].value.total
  {
    if cs != [] {
      var st := Offer(acc, cs[0]);
      if st.more {
        WalkMinimalUnlessStopped(cs[1..], st.acc);
        assert st.acc.found ==> Walk(cs, acc).bestVal <= st.acc.bestVal;
        forall j | Scored(cs, j) && j > 0 ensures Scored(cs[1..], j - 1) && cs[1..][j - 1] == cs[j] { }
      }
    }
  }

  /** A stopped walk ends on score 0 and never consults the records after the stop. */
  lemma {:induction false} WalkStopsAtPerfect(cs: seq<Option<Candidate>>, tail: seq<Option<Candidate>>, acc: Closest)
    requires Stops(cs, acc)
    ensures Walk(cs, acc).found && Walk(cs, acc).bestVal == 0
    ensures Walk(cs + tail, acc) == Walk(cs, acc)
  {
    var st := Offer(acc, cs[0]);
    assert (cs + tail)[0] == cs[0];
    if st.more {
      assert (cs + tail)[1..] == cs[1..] + tail;
      WalkStopsAtPerfect(cs[1..], tail, st.acc);
    }
  }

  /** A walk that did not stop continues into further records from where it ended. */
  lemma {:induction false} WalkContinues(cs: seq<Option<Candidate>>, tail: seq<Option<Candidate>>, acc: Closest)
    requires !Stops(cs, acc)
    ensures Walk(cs + tail, acc) == Walk(tail, Walk(cs, acc))
  {
    if cs == [] {
      assert cs + tail == tail;
    } else {
      var st := Offer(acc, cs[0]);
      assert (cs + tail)[0] == cs[0];
      assert (cs + tail)[1..] == cs[1..] + tail;
      WalkContinues(cs[1..], tail, st.acc);
    }
  }

  /** Either nothing replaced the starting record, or the result is the first record with the best score. */
  lemma {:induction false} WalkChoosesFirstBest(cs: seq<Option<Candidate>>, acc: Closest)
    ensures var r := Walk(cs, acc);
      r.found ==>
        (r == acc && forall j :: Scored(cs, j) ==> cs[j].value.total >= acc.bestVal)
        || (exists i :: FirstBest(cs, i, r) && (acc.found ==> acc.bestVal > r.bestVal))
  {
    var r := Walk(cs, acc);
    if cs != [] && r.found {
      var st := Offer(acc, cs[0]);
      if cs[0].None? {
        WalkChoosesFirstBest(cs[1..], acc);
        ShiftFirstBest(cs, acc, r);
      } else {
        var t0 := cs[0].value.total;
        if !acc.found || acc.bestVal > t0 {
          if !st.more {
            assert FirstBest(cs, 0, r);
          } else {
            WalkChoosesFirstBest(cs[1..], st.acc);
            if r == st.acc && forall j :: Scored(cs[1..], j) ==> cs[1..][j].value.total >= st.acc.bestVal {
              assert FirstBest(cs, 0, r);
            } else {
              var i' :| FirstBest(cs[1..], i', r) && st.acc.bestVal > r.bestVal;
              assert FirstBest(cs, i' + 1, r) by {
                forall j | 0 <= j < i' + 1 && Scored(cs, j) ensures cs[j].value.total > r.bestVal {
                  if j > 0 { assert Scored(cs[1..], j - 1); }
                }
              }
            }
          }
        } else {
          WalkChoosesFirstBest(cs[1..], acc);
          ShiftFirstBest(cs, acc, r);
        }
      }
    }
  }

  /** The inductive step of WalkChoosesFirstBest when record 0 is not taken. */
  lemma ShiftFirstBest(cs: seq<Option<Candidate>>, acc: Closest, r: Closest)
    requires cs != []
    requires cs[0].None? || (acc.found && acc.bestVal <= cs[0].value.total)
    requires r.found
    requires (r == acc && forall j :: Scored(cs[1..], j) ==> cs[1..][j].value.total >= acc.bestVal)
             || (exists i :: FirstBest(cs[1..], i, r) && (acc.found ==> acc.bestVal > r.bestVal))
    ensures (r == acc && forall j :: Scored(cs, j) ==> cs[j].value.total >= acc.bestVal)
            || (exists i :: FirstBest(cs, i, r) && (acc.found ==> acc.bestVal > r.bestVal))
  {
    if r == acc && forall j :: Scored(cs[1..], j) ==> cs[1..][j].value.total >= acc.bestVal {
      forall j | Scored(cs, j) ensures cs[j].value.total >= acc.bestVal {
        if j > 0 { assert Scored(cs[1..], j - 1); }
      }
    } else {
      var i' :| FirstBest(cs[1..], i', r) && (acc.found ==> acc.bestVal > r.bestVal);
      assert FirstBest(cs, i' + 1, r) by {
        forall j | 0 <= j < i' + 1 && Scored(cs, j) ensures cs[j].value.total > r.bestVal {
          if j > 0 { assert Scored(cs[1..], j - 1); }
        }
      }
    }
  }

  // ---------------------------------------------------------------------
  // The video selector
  // ---------------------------------------------------------------------

  function VideoOffer(config: VideoConfig, oe: Option<Entry<VideoStreamCaps>>): Option<Candidate>
  {
    match oe
    case None => None
    case Some(e) => VideoCandidate(config, e)
  }

  /** The scored records of a capability list, in order. */
  function VideoCandidates(config: VideoConfig, es: seq<Option<Entry<VideoStreamCaps>>>): (cs: seq<Option<Candidate>>)
    ensures |cs| == |es|
    ensures forall i :: 0 <= i < |es| ==> cs[i] == VideoOffer(config, es[i])
  {
    seq(|es|, i requires 0 <= i < |es| => VideoOffer(config, es[i]))
  }

  /**
   * GetClosestVideoMediaType: walks the pin's records with the video
   * callback. Fails without touching `mt` when there is no pin or the pin
   * cannot list its records; otherwise returns the walk's outcome.
   */
  method GetClosestVideoMediaType(pin: Option<PinCaps<VideoStreamCaps>>, config: VideoConfig, mt: Option<MediaType>)
    returns (found: bool, mt': Option<MediaType>)
    ensures !(pin.Some? && pin.value.Listed?) ==> !found && mt' == mt
    ensures pin.Some? && pin.value.Listed? ==>
      var r := Walk(VideoCandidates(config, pin.value.entries), Closest(false, 0, mt));
      found == r.found && mt' == r.mt
  {
    found, mt' := false, mt;
    if pin.None? || !pin.value.Listed? {
      return;
    }
    var entries := pin.value.entries;
    ghost var cs := VideoCandidates(config, entries);
    var acc := Closest(false, 0, mt);
    var i := 0;
    while i < |entries|
      invariant 0 <= i <= |entries|
      invariant Walk(cs, Closest(false, 0, mt)) == Walk(cs[i..], acc)
    {
      assert cs[i..][0] == cs[i] && cs[i..][1..] == cs[i + 1..];
      match entries[i] {
        case None =>
        case Some(e) =>
          var st := Offer(acc, VideoCandidate(config, e));
          acc := st.acc;
          if !st.more {
            break;
          }
      }
      i := i + 1;
    }
    if i == |entries| {
      assert cs[i..] == [];
    }
    found, mt' := acc.found, acc.mt;
  }

  /** The video selector finds a record exactly when some record is compatible, and then yields a media type. */
  lemma ClosestVideoFound(config: VideoConfig, es: seq<Option<Entry<VideoStreamCaps>>>, mt: Option<MediaType>)
    ensures var r := Walk(VideoCandidates(config, es), Closest(false, 0, mt));
      && (r.found <==> exists i, e :: 0 <= i < |es| && es[i] == Some(e) && VideoCandidate(config, e).Some?)
      && (r.found ==> r.mt.Some?)
      && (!r.found ==> r.mt == mt)
  {
    var cs := VideoCandidates(config, es);
    WalkFound(cs, Closest(false, 0, mt));
    forall i, e | 0 <= i < |es| && es[i] == Some(e) && VideoCandidate(config, e).Some?
      ensures Scored(cs, i)
    {
    }
    if exists j :: Scored(cs, j) {
      var j :| Scored(cs, j);
      var e := es[j].value;
      assert es[j] == Some(e) && VideoCandidate(config, e).Some?;
    }
  }

  /** Video scores are never negative, so the chosen record scores no more than any compatible record. */
  lemma ClosestVideoOptimal(config: VideoConfig, es: seq<Option<Entry<VideoStreamCaps>>>, mt: Option<MediaType>)
    ensures var r := Walk(VideoCandidates(config, es), Closest(false, 0, mt));
      r.found ==>
        forall i, e :: 0 <= i < |es| && es[i] == Some(e) && VideoCandidate(config, e).Some? ==>
          r.bestVal <= VideoCandidate(config, e).value.total
  {
    var cs := VideoCandidates(config, es);
    var acc := Closest(false, 0, mt);
    if Stops(cs, acc) {
      WalkStopsAtPerfect(cs, [], acc);
    } else {
      WalkMinimalUnlessStopped(cs, acc);
      forall i, e | 0 <= i < |es| && es[i] == Some(e) && VideoCandidate(config, e).Some?
        ensures Scored(cs, i)
      {
      }
    }
  }

  /** Ties keep the earlier record: the media type chosen is that of the first record with the best score. */
  lemma ClosestVideoFirstBest(config: VideoConfig, es: seq<Option<Entry<VideoStreamCaps>>>, mt: Option<MediaType>)
    ensures var r := Walk(VideoCandidates(config, es), Closest(false, 0, mt));
      r.found ==> exists i :: FirstBest(VideoCandidates(config, es), i, r)
  {
    WalkChoosesFirstBest(VideoCandidates(config, es), Closest(false, 0, mt));
  }

  // ---------------------------------------------------------------------
  // The audio selector
  // ---------------------------------------------------------------------

  function AudioOffer(config: AudioConfig, oe: Option<Entry<AudioStreamCaps>>): Option<Candidate>
    requires AudioCapsUsable(config, oe)
  {
    match oe
    case None => None
    case Some(e) => AudioCandidate(config, e)
  }

  predicate AllAudioCapsUsable(config: AudioConfig, es: seq<Option<Entry<AudioStreamCaps>>>)
  {
    forall i :: 0 <= i < |es| ==> AudioCapsUsable(config, es[i])
  }

  function AudioCandidates(config: AudioConfig, es: seq<Option<Entry<AudioStreamCaps>>>): (cs: seq<Option<Candidate>>)
    requires AllAudioCapsUsable(config, es)
    ensures |cs| == |es|
    ensures forall i :: 0 <= i < |es| ==> cs[i] == AudioOffer(config, es[i])
  {
    seq(|es|, i requires 0 <= i < |es| => AudioOffer(config, es[i]))
  }

  /** GetClosestAudioMediaType: as the video selector, with the audio callback. */
  method GetClosestAudioMediaType(pin: Option<PinCaps<AudioStreamCaps>>, config: AudioConfig, mt: Option<MediaType>)
    returns (found: bool, mt': Option<MediaType>)
    requires pin.Some? && pin.value.Listed? ==> AllAudioCapsUsable(config, pin.value.entries)
    ensures !(pin.Some? && pin.value.Listed?) ==> !found && mt' == mt
    ensures pin.Some? && pin.value.Listed? ==>
      var r := Walk(AudioCandidates(config, pin.value.entries), Closest(false, 0, mt));
      found == r.found && mt' == r.mt
  {
    found, mt' := false, mt;
    if pin.None? || !pin.value.Listed? {
      return;
    }
    var entries := pin.value.entries;
    ghost var cs := AudioCandidates(config, entries);
    var acc := Closest(false, 0, mt);
    var i := 0;
    while i < |entries|
      invariant 0 <= i <= |entries|
      invariant Walk(cs, Closest(false, 0, mt)) == Walk(cs[i..], acc)
    {
      assert cs[i..][0] == cs[i] && cs[i..][1..] == cs[i + 1..];
      assert AudioCapsUsable(config, entries[i]);
      match entries[i] {
        case None =>
        case Some(e) =>
          var st := Offer(acc, AudioCandidate(config, e));
          acc := st.acc;
          if !st.more {
            break;
          }
      }
      i := i + 1;
    }
    if i == |entries| {
      assert cs[i..] == [];
    }
    found, mt' := acc.found, acc.mt;
  }

  lemma ClosestAudioFound(config: AudioConfig, es: seq<Option<Entry<AudioStreamCaps>>>, mt: Option<MediaType>)
    requires AllAudioCapsUsable(config, es)
    ensures var r := Walk(AudioCandidates(config, es), Closest(false, 0, mt));
      && (r.found <==> exists i, e :: 0 <= i < |es| && es[i] == Some(e) && AudioCandidate(config, e).Some?)
      && (r.found ==> r.mt.Some?)
      && (!r.found ==> r.mt == mt)
  {
    var cs := AudioCandidates(config, es);
    WalkFound(cs, Closest(false, 0, mt));
    forall i, e | 0 <= i < |es| && es[i] == Some(e) && AudioCandidate(config, e).Some?
      ensures Scored(cs, i)
    {
    }
    if exists j :: Scored(cs, j) {
      var j :| Scored(cs, j);
      var e := es[j].value;
      assert es[j] == Some(e) && AudioCandidate(config, e).Some?;
    }
  }

  /**
   * Audio scores can be negative, so the walk may stop on a 0 before a lower
   * score later in the list; unless it ended on 0, nothing compatible scores
   * lower than the chosen record.
   */
  lemma ClosestAudioOptimalUnlessPerfect(config: AudioConfig, es: seq<Option<Entry<AudioStreamCaps>>>, mt: Option<MediaType>)
    requires AllAudioCapsUsable(config, es)
    ensures var r := Walk(AudioCandidates(config, es), Closest(false, 0, mt));
      r.found && r.bestVal != 0 ==>
        forall i, e :: 0 <= i < |es| && es[i] == Some(e) && AudioCandidate(config, e).Some? ==>
          r.bestVal <= AudioCandidate(config, e).value.total
  {
    var cs := AudioCandidates(config, es);
    var acc := Closest(false, 0, mt);
    if Stops(cs, acc) {
      WalkStopsAtPerfect(cs, [], acc);
    } else {
      WalkMinimalUnlessStopped(cs, acc);
      forall i, e | 0 <= i < |es| && es[i] == Some(e) && AudioCandidate(config, e).Some?
        ensures Scored(cs, i)
      {
      }
    }
  }

  lemma ClosestAudioFirstBest(config: AudioConfig, es: seq<Option<Entry<AudioStreamCaps>>>, mt: Option<MediaType>)
    requires AllAudioCapsUsable(config, es)
    ensures var r := Walk(AudioCandidates(config, es), Closest(false, 0, mt));
      r.found ==> exists i :: FirstBest(AudioCandidates(config, es), i, r)
  {
    WalkChoosesFirstBest(AudioCandidates(config, es), Closest(false, 0, mt));
  }

  // ---------------------------------------------------------------------
  // Listing capabilities (EnumVideoCaps / EnumAudioCaps)
  // ---------------------------------------------------------------------

  /** EnumVideoCap on one record: a VideoInfo record whose data can be read is appended. */
  function VideoCapOf(oe: Option<Entry<VideoStreamCaps>>): (r: seq<VideoInfo>)
    ensures |r| <= 1
    ensures r != [] <==>
      oe.Some? && oe.value.mt.formatType == FormatVideoInfo && GetVideoInfoData(oe.value.mt, oe.value.data).Some?
    ensures r != [] ==> r[0] == GetVideoInfoData(oe.value.mt, oe.value.data).value
  {
    match oe
    case None => []
    case Some(e) =>
      if e.mt.formatType == FormatVideoInfo && GetVideoInfoData(e.mt, e.data).Some?
      then [GetVideoInfoData(e.mt, e.data).value]
      else []
  }

  /** EnumVideoCaps' listing: each record's contribution, in the pin's order. */
  function VideoCapsOf(es: seq<Option<Entry<VideoStreamCaps>>>): (r: seq<VideoInfo>)
    ensures |r| <= |es|
  {
    if es == [] then [] else VideoCapsOf(es[..|es| - 1]) + VideoCapOf(es[|es| - 1])
  }

  method EnumVideoCaps(pin: PinCaps<VideoStreamCaps>, caps: seq<VideoInfo>) returns (ok: bool, caps': seq<VideoInfo>)
    ensures ok <==> pin.Listed?
    ensures caps' == caps + if pin.Listed? then VideoCapsOf(pin.entries) else []
  {
    caps' := caps;
    if !pin.Listed? {
      return false, caps';
    }
    var entries := pin.entries;
    for i := 0 to |entries|
      invariant caps' == caps + VideoCapsOf(entries[..i])
    {
      assert entries[..i + 1][..i] == entries[..i];
      if entries[i].Some? {
        var e := entries[i].value;
        if e.mt.formatType == FormatVideoInfo {
          var info := GetVideoInfoData(e.mt, e.data);
          if info.Some? {
            caps' := caps' + [info.value];
          }
        }
      }
    }
    assert entries[..|entries|] == entries;
    ok := true;
  }

  /** Every listed video record has granularities of at least 1, and no listing is longer than the pin's list. */
  lemma {:induction false} VideoCapsNormalised(es: seq<Option<Entry<VideoStreamCaps>>>)
    ensures |VideoCapsOf(es)| <= |es|
    ensures forall k :: 0 <= k < |VideoCapsOf(es)| ==>
      VideoCapsOf(es)[k].granularityCX >= 1 && VideoCapsOf(es)[k].granularityCY >= 1
  {
    if es != [] {
      VideoCapsNormalised(es[..|es| - 1]);
    }
  }

  /** Every readable VideoInfo record of the pin is listed. */
  lemma {:induction false} VideoCapsComplete(es: seq<Option<Entry<VideoStreamCaps>>>, i: int)
    requires 0 <= i < |es| && es[i].Some?
    requires es[i].value.mt.formatType == FormatVideoInfo
    requires GetVideoInfoData(es[i].value.mt, es[i].value.data).Some?
    ensures GetVideoInfoData(es[i].value.mt, es[i].value.data).value in VideoCapsOf(es)
  {
    if i < |es| - 1 {
      VideoCapsComplete(es[..|es| - 1], i);
    }
  }

  predicate AudioDataPresent(es: seq<Option<Entry<AudioStreamCaps>>>)
  {
    forall i :: 0 <= i < |es| && es[i].Some? && es[i].value.mt.formatType == FormatWaveFormatEx ==>
      es[i].value.data.Some?
  }

  /** EnumAudioCap on one record: every WaveFormatEx record is appended. */
  function AudioCapOf(oe: Option<Entry<AudioStreamCaps>>): (r: seq<AudioInfo>)
    requires oe.Some? && oe.value.mt.formatType == FormatWaveFormatEx ==> oe.value.data.Some?
    ensures |r| == if oe.Some? && oe.value.mt.formatType == FormatWaveFormatEx then 1 else 0
    ensures r != [] ==> r[0] == GetWaveFormatExData(oe.value.mt, oe.value.data.value)
  {
    match oe
    case None => []
    case Some(e) =>
      if e.mt.formatType == FormatWaveFormatEx then [GetWaveFormatExData(e.mt, e.data.value)] else []
  }

  /** EnumAudioCaps' listing: each record's contribution, in the pin's order. */
  function AudioCapsOf(es: seq<Option<Entry<AudioStreamCaps>>>): (r: seq<AudioInfo>)
    requires AudioDataPresent(es)
    ensures |r| <= |es|
  {
    if es == [] then [] else AudioCapsOf(es[..|es| - 1]) + AudioCapOf(es[|es| - 1])
  }

  method EnumAudioCaps(pin: PinCaps<AudioStreamCaps>, caps: seq<AudioInfo>) returns (ok: bool, caps': seq<AudioInfo>)
    requires pin.Listed? ==> AudioDataPresent(pin.entries)
    ensures ok <==> pin.Listed?
    ensures caps' == caps + if pin.Listed? then AudioCapsOf(pin.entries) else []
  {
    caps' := caps;
    if !pin.Listed? {
      return false, caps';
    }
    var entries := pin.entries;
    for i := 0 to |entries|
      invariant caps' == caps + AudioCapsOf(entries[..i])
    {
      assert entries[..i + 1][..i] == entries[..i];
      if entries[i].Some? {
        var e := entries[i].value;
        if e.mt.formatType == FormatWaveFormatEx {
          caps' := caps' + [GetWaveFormatExData(e.mt, e.data.value)];
        }
      }
    }
    assert entries[..|entries|] == entries;
    ok := true;
  }

  /** The audio listing has exactly one record per WaveFormatEx entry. */
  lemma {:induction false} AudioCapsCount(es: seq<Option<Entry<AudioStreamCaps>>>)
    requires AudioDataPresent(es)
    ensures |AudioCapsOf(es)| == |set i | 0 <= i < |es| && es[i].Some? && es[i].value.mt.formatType == FormatWaveFormatEx|
  {
    if es != [] {
      var n := |es| - 1;
      var front := es[..n];
      AudioCapsCount(front);
      var s := set i | 0 <= i < |es| && es[i].Some? && es[i].value.mt.formatType == FormatWaveFormatEx;
      var s' := set i | 0 <= i < |front| && front[i].Some? && front[i].value.mt.formatType == FormatWaveFormatEx;
      if es[n].Some? && es[n].value.mt.formatType == FormatWaveFormatEx {
        assert s == s' + {n};
      } else {
        assert s == s';
      }
    }
  }

  // ---------------------------------------------------------------------
  // Worked cases
  // ---------------------------------------------------------------------

  /** 1920x1080 at 30 fps against 640-1920 x 480-1080, 15-60 fps, granularity 8: a perfect, unchanged match. */
  lemma Video1080pPerfect(mt: MediaType)
    requires mt.formatType == FormatVideoInfo && mt.subtype == VideoSubType(VideoFormat.YUY2)
    ensures var config := VideoConfig("cam", "", false, false, 1920, 1080, 333333, VideoFormat.Any, VideoFormat.Any);
      var caps := VideoStreamCaps(640, 480, 1920, 1080, 8, 8, 166666, 666666);
      var c := VideoCandidate(config, Entry(mt, Some(caps)));
      && c.Some? && c.value.total == 0
      && c.value.mt.width == 1920 && c.value.mt.height == 1080 && c.value.mt.interval == 333333
      && Offer(Closest(false, 0, None), c).more == false
  {
  }

  /**
   * 8 channels requested against a 1-2 channel record: the channel deficit
   * as computed is 0, so the count is set to the clamped request, above the
   * record's maximum.
   */
  lemma AudioChannelsAboveMaximum(mt: MediaType)
    requires mt.formatType == FormatWaveFormatEx && mt.bits == 16
    ensures var config := AudioConfig("mic", "", false, false, false, 96000, 8, AudioFormat.Any, Capture);
      var caps := AudioStreamCaps(1, 2, 1, 8000, 48000, 100);
      var c := AudioCandidate(config, Entry(mt, Some(caps)));
      && c.Some?
      && ChannelDeficit(8, 1, 2) == 0 && RangeDeficit(8, 1, 2) == 6
      && c.value.total == 48000
      && c.value.mt.channels == 8 && c.value.mt.blockAlign == 16
      && c.value.mt.rate == mt.rate
  {
  }
}

=== FILE: types.dfy ===
/**
 * Value types shared by the capability selector and the capture session:
 * the negotiated media type, the caller's video and audio configurations,
 * and the raw capability records a capture pin reports.
 */
module Types {

  datatype Option<T> = None | Some(value: T)

  /** Unsigned 16-bit field of a WAVEFORMATEX (WORD). */
  type Word = x: int | 0 <= x < 0x1_0000

  /** Unsigned 32-bit field of a WAVEFORMATEX (DWORD). */
  type DWord = x: int | 0 <= x < 0x1_0000_0000

  /** Storing an integer into a WORD keeps its low 16 bits. */
  function ToWord(x: int): (w: Word)
    ensures 0 <= x < 0x1_0000 ==> w == x
    ensures (w - x) % 0x1_0000 == 0
  {
    x % 0x1_0000
  }

  /** Storing an integer into a DWORD keeps its low 32 bits. */
  function ToDWord(x: int): (d: DWord)
    ensures 0 <= x < 0x1_0000_0000 ==> d == x
    ensures (d - x) % 0x1_0000_0000 == 0
  {
    x % 0x1_0000_0000
  }

  /** Reading a DWORD into a signed 32-bit int. */
  function DWordToInt(d: DWord): (i: int)
    ensures -0x8000_0000 <= i < 0x8000_0000
    ensures (i - d) % 0x1_0000_0000 == 0
  {
    if d < 0x8000_0000 then d else d - 0x1_0000_0000
  }

  datatype VideoFormat =
    | Any | Unknown
    | ARGB | XRGB
    | I420 | NV12 | YV12 | Y800
    | YVYU | YUY2 | UYVY | HDYC
    | MJPEG | H264

  datatype AudioFormat =
    | Any | Unknown
    | Wave16bit | WaveFloat
    | AAC | AC3 | MPGA

  datatype AudioMode = Capture | DirectSound | WaveOut

  datatype MajorType = MajorVideo | MajorAudio | MajorOther

  /**
   * A media subtype. Subtypes that the library recognises as a video format
   * are identified with that format; every other subtype is an opaque code.
   */
  datatype SubType = VideoSubType(format: VideoFormat) | OtherSubType(code: nat)

  /** The layout of a media type's format block (FORMAT_* of AM_MEDIA_TYPE). */
  datatype FormatType = FormatVideoInfo | FormatVideoInfo2 | FormatWaveFormatEx | FormatOther

  /**
   * A media type: the header fields the core reads or writes. Width, height
   * and interval are the BITMAPINFOHEADER size and VIDEOINFOHEADER frame
   * interval; the last five are the WAVEFORMATEX fields.
   */
  datatype MediaType = MediaType(
    major: MajorType,
    subtype: SubType,
    formatType: FormatType,
    width: int,
    height: int,
    interval: int,
    channels: Word,
    rate: DWord,
    bits: Word,
    blockAlign: Word,
    avgBytes: DWord)

  /** The video format a media subtype stands for, if the library knows it. */
  function VideoFormatOf(mt: MediaType): Option<VideoFormat>
  {
    match mt.subtype
    case VideoSubType(f) => Some(f)
    case OtherSubType(_) => None
  }

  /** Whether the format block starts with a bitmap header (VIDEOINFOHEADER or VIDEOINFOHEADER2). */
  predicate HasBitmapHeader(mt: MediaType)
  {
    mt.formatType == FormatVideoInfo || mt.formatType == FormatVideoInfo2
  }

  /** VIDEO_STREAM_CONFIG_CAPS: the ranges a video capability record reports. */
  datatype VideoStreamCaps = VideoStreamCaps(
    minCX: int, minCY: int, maxCX: int, maxCY: int,
    granularityX: int, granularityY: int,
    minInterval: int, maxInterval: int)

  /** AUDIO_STREAM_CONFIG_CAPS: the ranges an audio capability record reports. */
  datatype AudioStreamCaps = AudioStreamCaps(
    minChannels: int, maxChannels: int, channelsGranularity: int,
    minRate: int, maxRate: int, rateGranularity: int)

  /** One capability record: its media type and its caps block (None: a null block). */
  datatype Entry<C> = Entry(mt: MediaType, data: Option<C>)

  /**
   * What a capture pin answers when its capabilities are listed: it has no
   * stream configuration interface, it cannot report how many records it has,
   * or it lists them; an entry is None when fetching that record failed.
   */
  datatype PinCaps<C> = NoStreamConfig | CountFailed | Listed(entries: seq<Option<Entry<C>>>)

  /** The normalised video capability record (DShow::VideoInfo). */
  datatype VideoInfo = VideoInfo(
    format: VideoFormat,
    minCX: int, minCY: int, maxCX: int, maxCY: int,
    granularityCX: int, granularityCY: int,
    minInterval: int, maxInterval: int)

  /**
   * The audio capability record (DShow::AudioInfo). Its format is None when
   * the record's sample size is neither 16 nor 32 bits, where the library
   * leaves the field unset.
   */
  datatype AudioInfo = AudioInfo(
    format: Option<AudioFormat>,
    minChannels: int, maxChannels: int, channelsGranularity: int,
    minSampleRate: int, maxSampleRate: int, sampleRateGranularity: int)

  /** The caller's video request; written back with the negotiated values. */
  datatype VideoConfig = VideoConfig(
    name: string,
    path: string,
    hasCallback: bool,
    useDefaultConfig: bool,
    cx: int,
    cy: int,
    frameInterval: int,
    internalFormat: VideoFormat,
    format: VideoFormat)

  /** The caller's audio request; written back with the negotiated values. */
  datatype AudioConfig = AudioConfig(
    name: string,
    path: string,
    hasCallback: bool,
    useVideoDevice: bool,
    useDefaultConfig: bool,
    sampleRate: int,
    channels: int,
    format: AudioFormat,
    mode: AudioMode)
}
